=== FILE: README.md ===
# Verified model of the B2B mesh chat nodes

This project models, in Dafny, the per-packet logic of a small flooding mesh
chat written in Python. Every node variant in the repository has its own copy
of that logic. With sockets, clocks, uuids and JSON taken out, each copy is a
deterministic state machine. A step takes the node state, one incoming packet
and the current time, and returns the new state plus the datagrams and
notifications it emits.

Modules (one per source file, plus shared pieces):

- `RoutedNode`: the desktop simulation node (`src/mesh/mesh_node.py`). It has
  a neighbour table, a routing table of next hops, a set of delivered ids and
  an inbox. HELLOs teach it neighbours. DATA packets teach it reverse routes
  and are either delivered locally and ACKed, or forwarded with a smaller TTL.
  Forwarding goes to the next hop when the route is usable and floods
  otherwise. The three-node test chain A–B–C is replayed as a lemma.
- `Flood`: the MESSAGE handling shared by `mesh_chat.py`,
  `mesh_chat_termux.py` and `web_mesh_chat.py`. It covers duplicate
  suppression, the capped seen set (`SeenCache`: above 1000 ids, keep 500),
  local delivery, and re-broadcast while `ttl > 0` with `ttl - 1`.
- `MeshChat`, `TermuxChat`, `WebChat`: the three broadcast chat nodes. Each
  has HELLO handling, MESSAGE handling, the own-IP filter where the node has
  one, one pass of the cleanup loop (`Staleness`: evict when
  `now - last_seen > 15`, strictly), and outgoing packet construction.
  `WebChat` also models the `ip addr` parsing that picks the local address.
- `WifiDirect`: the WiFi Direct node. Peers are kept in an insertion-ordered
  table (`OrdMaps`, Python dict order). Messages are unicast to each peer's
  IP. The TTL is decremented *before* the check, the seen set has no cap, and
  a missing key aborts handling at the lookup (`message[key]`). It also models
  recipient resolution and `p2p` interface detection over given text.
- `PacketTracer`: the minimal node. It is the only variant that both delivers
  and re-broadcasts messages to `"ALL"`. Frames are the JSON text plus `"\n"`.
- `Framing` and `Transport`: the newline framing of the Bluetooth receive
  loop over bytes. A chunk is appended to the buffer and every complete,
  non-empty line is cut off. `Transport` adds the connection table,
  `BluetoothTransport.send`, `WiFiDirectTransport.send` and the two `stop`s.
- `Text`, `OrdMaps`, `Wrappers`: the Python string operations used (ASCII
  only), insertion-ordered dicts, and `Option` (a missing JSON key is `None`).

Parameters stand in for what the code reads from the outside world:

- `now` is integer seconds.
- uuid and time-based id parts are `nonce`/`millis` strings or numbers.
- Per-send success is a boolean oracle.
- Python's iteration order of a `set` is an `order` listing, used where
  `set(list(seen)[-500:])` picks survivors.
- A received Bluetooth chunk is `Option<Bytes>`, where `None` means `recv`
  raised.

The constants are those of the code: peers go stale after more than 15
seconds, the seen set of the chat nodes is cut from above 1000 ids to 500
(the WiFi Direct node and the packet tracer never cut it), and a new message
starts with TTL 7 (routed node), 10 (chat nodes) or 5 (packet tracer).
Duplicates are remembered by id alone, with no age limit.

Two consequences of the code, visible in the contracts:

- `RoutedNode.HandleHello` answers every HELLO that has an id with a HELLO.
  Two routed nodes therefore keep answering each other's replies.
- `RoutedNode.SendMessage` does not record the node's own message id. A
  flooded message that comes back to its sender is handled like anyone
  else's.

## Model

| member | source | states |
|---|---|---|
| `RoutedNode.NewNode` | src/mesh/mesh_node.py:21-30 | A new node has no neighbours, routes, delivered ids or inbox entries, and sequence number 0. |
| `RoutedNode.HandleHello` | src/mesh/mesh_node.py:102-111 | A HELLO without a truthy `node_id` changes nothing and sends nothing. Otherwise `neighbors[id]` is the sender's address and `routing_table[id] = id`. A known neighbour keeps its place in the table order; a new one is appended last. Nothing else changes, and exactly one HELLO goes back to that address. |
| `RoutedNode.HandleDataWith` | src/mesh/mesh_node.py:113-156 | A missing or already-delivered `msg_id` changes nothing and sends nothing. Otherwise the id is recorded, and the routes change only by `routes[source] = prev_hop` when both are truthy. A packet for this node is appended to the inbox as (source, id, payload), and the sends are exactly the ACKs `_send_ack` makes toward the source (none without a source). Any other packet is dropped when its TTL (missing = 0) is ≤ 0, and otherwise forwarded as the copy with `ttl - 1` and `prev_hop = node_id`. |
| `RoutedNode.HandleDataAsWritten` | src/mesh/mesh_node.py:151-156 | When the packet is flooded, every neighbour not named like this node gets the relayed copy, including the neighbour it came from. |
| `RoutedNode.HandleData` | src/mesh/mesh_node.py:193-207 | Corrected flood: every neighbour except the one named by the incoming `prev_hop` gets the relayed copy, and no other address does. |
| `RoutedNode.HandlePacket` | src/mesh/mesh_node.py:91-100 | HELLO goes to its handler and DATA to the handler as written (the flood that can return a packet to its sender). ACK and every other type change nothing and send nothing. |
| `RoutedNode.HandlePacketIntended` | src/mesh/mesh_node.py:91-100 | The same dispatch with DATA going to the corrected handler, whose flood skips the previous hop. |
| `RoutedNode.DispatchersAgreeUnlessFlooding` | src/mesh/mesh_node.py:151-207 | The written and the corrected dispatch give the same node and the same sends for every packet except a DATA packet that floods. |
| `RoutedNode.DeliveryAcknowledged` | src/mesh/mesh_node.py:131-149 | A fresh DATA packet for this node whose source is a neighbour draws exactly one ACK for its id, to the next hop toward the source when that route is usable and to the source's own address otherwise. |
| `RoutedNode.ForwardExcept` | src/mesh/mesh_node.py:193-207 | With a usable route (a truthy next hop that is a current neighbour), exactly one send goes to that neighbour. Otherwise every neighbour not excluded gets the packet, and every send goes to a neighbour that is not excluded. |
| `RoutedNode.FloodExcept` | src/mesh/mesh_node.py:202-207 | At most one copy per neighbour. Every copy is the packet itself. A neighbour gets a copy if and only if its id is not the excluded one. |
| `RoutedNode.AckSends` | src/mesh/mesh_node.py:209-231 | No destination gives no ACK. Otherwise every send is the ACK for this id. It goes to the next hop when the route is usable, else to the destination when it is a neighbour, else one copy to each neighbour in table order. |
| `RoutedNode.SendMessage` | src/mesh/mesh_node.py:168-191 | The sequence number rises by exactly 1 and nothing else in the node changes. Every send is a DATA packet with id `node_id:seq:nonce`, TTL 7 unless given, and no `prev_hop`. It is one unicast with a usable route, else a copy to every neighbour in table order. |
| `RoutedNode.ConnectToPeer` | src/mesh/mesh_node.py:234-236 | One HELLO to the given address. The node does not change. |
| `RoutedNode.AddStaticNeighbor` | src/mesh/mesh_node.py:242-246 | The neighbour entry and a direct route are set. A known neighbour keeps its place in the table order; a new one is appended last. Nothing is sent and nothing else changes. |
| `RoutedNode.StaticNeighborIsUnicast` | src/mesh/mesh_node.py:242-246 | After a static neighbour is added under a non-empty id, a message to that id is one datagram to the given address and port. |
| `RoutedNode.SecondCopyIgnored` | src/mesh/mesh_node.py:113-120 | Handling the same DATA packet a second time changes nothing and sends nothing. This holds under either flood rule. |
| `RoutedNode.HelloEnablesUnicast` | src/mesh/mesh_node.py:182-187 | After a neighbour's HELLO, a message to it is one send, to the address the HELLO came from. |
| `RoutedNode.MessageIdsDiffer` | src/mesh/mesh_node.py:169-171 | Ids with different sequence numbers differ, whatever the random suffixes are. |
| `RoutedNode.SuccessiveMessagesDiffer` | src/mesh/mesh_node.py:168-171 | Two messages sent one after the other never share an id. |
| `RoutedNode.FloodReturnsToSender` | src/mesh/mesh_node.py:155-207 | As written, a flood with no usable route sends a copy back to the neighbour named by the incoming `prev_hop`. |
| `RoutedNode.FloodReturnsToSenderExample` | src/mesh/mesh_node.py:151-207 | Concrete case: B has neighbours A and C and no route to D. It floods A's packet for D to both A and C. |
| `RoutedNode.FloodSkipsSender` | src/mesh/mesh_node.py:202-207 | Corrected flood, with neighbours at distinct addresses: no copy goes to the address of the neighbour the packet came from. |
| `RoutedNode.ChainDelivers` | tests/test_simulation.py:6-40 | Chain A–B–C on 127.0.0.1:5101-5103, wired by HELLOs. A's message to C is flooded to B, sent by B to C alone, and lands once in C's inbox as (A, id, payload). |
| `RoutedNode.HelloStep` | src/mesh/mesh_node.py:102-111 | A HELLO from a node with a non-empty id leaves the receiver identical except for that neighbour's address and a direct route to it. |
| `RoutedNode.RelayStep` | src/mesh/mesh_node.py:150-200 | A fresh DATA packet for another node, with TTL left and a usable route, produces exactly one send: the relayed copy, to that next hop. |
| `RoutedNode.DeliverStep` | src/mesh/mesh_node.py:131-141 | A fresh DATA packet for this node adds exactly one inbox entry, at the end, carrying the packet's source, id and payload. |
| `RoutedNode.FloodSends` | src/mesh/mesh_node.py:150-207 | When a packet floods, the sends are the relayed copy sent over the neighbour table in order, skipping only the neighbour the flood rule names. |
| `Flood.HandleMessage` | mesh_chat.py:162-189 | A seen id is a duplicate and changes nothing. A new id is recorded under the cap. The message is delivered if and only if it is new and local (then never re-sent), and re-broadcast if and only if it is new, not local, and its TTL (missing = 0) is positive, as the same packet with `ttl - 1`. |
| `Flood.SecondCopyIgnored` | mesh_chat.py:170-173 | While the seen set is below the cap, a second copy of any message is a duplicate with no effect. |
| `Flood.RelayChainBounded` | mesh_chat.py:186-189 | Along any chain of re-broadcasts the TTL drops by exactly 1 per hop. A message starting with TTL `t` is relayed at most `max(t, 0)` times along any path. |
| `SeenCache.Record` | mesh_chat.py:173-177 | At or below 1000 ids the new id is simply added. Above 1000 the result is a 500-element subset of the grown set. A set within the cap stays within it. |
| `Staleness.Sweep` | mesh_chat.py:208-217 | Exactly the peers with `now - last_seen > 15` are removed. The others keep their timestamps. |
| `Staleness.SweepLater` | mesh_chat.py:205-217 | A sweep at `t1` followed by a sweep at `t2 >= t1` is the same as one sweep at `t2`. |
| `Staleness.SweepIdempotent` | mesh_chat.py:205-217 | Two sweeps at the same instant are the same as one. |
| `Staleness.HeardPeerLifetime` | mesh_chat.py:211-214 | A peer heard at `t` survives every sweep up to `t + 15` and is gone from any later one. |
| `MeshChat.HandleHello` | mesh_chat.py:145-160 | A missing or own id is ignored. Otherwise `peers[id] = now`, `routing_table[id] = id`, and the GUI is notified once. |
| `MeshChat.HandleMessage` | mesh_chat.py:162-189 | A duplicate has no effect. A new id is recorded under the cap. A message to this node is delivered as (from, payload) and not forwarded. Any other message is re-broadcast once if and only if its TTL is positive, as its relay copy. |
| `MeshChat.HandlePacket` | mesh_chat.py:136-143 | HELLO and MESSAGE go to their handlers. Any other type changes nothing. |
| `MeshChat.Receive` | mesh_chat.py:117-128 | A datagram from the node's own IP is ignored. Every other datagram is handled. |
| `MeshChat.Sweep` | mesh_chat.py:203-222 | Exactly the stale peers and their routes are removed, and everything else is kept. The GUI is told if and only if something was removed. |
| `MeshChat.SendMessage` | mesh_chat.py:87-115 | One MESSAGE with TTL 10, from this node, to `dest`, with the text and an id starting `node_id:`. The result is the send's success. |
| `MeshChat.SentMessageDelivered` | mesh_chat.py:179-184 | The addressee of a sent message shows (sender, text) and does not re-send it. |
| `MeshChat.SentMessageRelayed` | mesh_chat.py:186-189 | A third node re-broadcasts a freshly sent message exactly once, with TTL 9. |
| `MeshChat.HelloThenSweep` | mesh_chat.py:203-219 | A peer that said HELLO at `t` keeps its entry and its route through sweeps up to `t + 15` and loses both after. |
| `TermuxChat.HandleHello` | mesh_chat_termux.py:104-113 | A missing or own id is ignored. Otherwise `peers[id] = now`, and the peer is announced if and only if it was absent. |
| `TermuxChat.HandleMessage` | mesh_chat_termux.py:115-141 | A duplicate has no effect. A new id is recorded under the cap. A message to this node is shown and not forwarded. Any other message is forwarded if and only if its TTL is positive, with `ttl - 1`. |
| `TermuxChat.Receive` | mesh_chat_termux.py:86-115 | Datagrams from the node's own IP and unknown types are ignored. HELLO and MESSAGE go to their handlers. |
| `TermuxChat.Sweep` | mesh_chat_termux.py:158-167 | Exactly the peers stale for more than 15 s are removed and reported lost. Everything else is kept. |
| `TermuxChat.SendMessage` | mesh_chat_termux.py:66-77 | MESSAGE with TTL 10, from this node, with an id starting `node_id:`. |
| `TermuxChat.SentMessageShown` | mesh_chat_termux.py:66-77 | The addressee of a sent message, receiving it from another IP, shows (sender, text) and does not forward it. |
| `TermuxChat.SentMessageForwarded` | mesh_chat_termux.py:131-141 | Any other node that has not seen a sent message forwards it once, with TTL 9, and shows nothing. |
| `TermuxChat.HelloAnnouncedOnce` | mesh_chat_termux.py:104-113 | A second HELLO from a known peer refreshes its time and is not announced again. |
| `TermuxChat.KnownHellosAnnounceNothing` | mesh_chat_termux.py:104-113 | Any run of HELLOs from peers already in the table announces nothing and leaves the set of known peers unchanged. |
| `WebChat.HandleHello` | web_mesh_chat.py:122-130 | A missing or own id is ignored. Otherwise `peers[id] = now`, and a peer-change notice fires if and only if the id was new. |
| `WebChat.HandleMessage` | web_mesh_chat.py:132-161 | A duplicate has no effect. A new id is recorded under the cap. A message to this node or to `"ALL"` is delivered and not re-broadcast. Any other message is re-broadcast if and only if its TTL is positive, with `ttl - 1`. |
| `WebChat.HandlePacket` | web_mesh_chat.py:119-132 | HELLO and MESSAGE go to their handlers. Any other type changes nothing. There is no own-IP filter. |
| `WebChat.Sweep` | web_mesh_chat.py:179-188 | Corrected cleanup pass: exactly the stale peers go, and one notice fires if and only if at least one went. |
| `WebChat.SweepAsWritten` | web_mesh_chat.py:179-197 | Cleanup pass as written: exactly the stale peers go and no notice is delivered. The thread is left blocked holding the lock if and only if a peer went while a callback is registered. |
| `WebChat.HandlePacketWhile` | web_mesh_chat.py:119-130 | While the lock is held for good, a HELLO from another node is never handled. Every other packet is handled as usual. |
| `WebChat.EvictionDeadlocks` | web_mesh_chat.py:183-197 | When a pass evicts a peer with a callback registered, the written loop evicts the same peers as the corrected one but sends no notice where the corrected one sends one, and the next HELLO from another node is never handled. |
| `WebChat.StaleSweepExample` | web_mesh_chat.py:183-197 | Concrete case: one peer last heard at 0, swept at 20 with the one callback `start_server` registers, blocks the cleanup thread with no notice sent. |
| `WebChat.SendMessage` | web_mesh_chat.py:88-101 | MESSAGE with TTL 10, from this node, with an id starting `node_id:`. |
| `WebChat.SentMessageDelivered` | web_mesh_chat.py:88-154 | A sent message addressed to a node, or to `"ALL"`, is delivered there as (sender, text) and not re-broadcast. |
| `WebChat.SentMessageForwarded` | web_mesh_chat.py:156-161 | Any other node that has not seen a sent message re-broadcasts it once, with TTL 9, and delivers nothing. |
| `WebChat.BroadcastNotRelayed` | web_mesh_chat.py:146-154 | A message to `"ALL"` is never re-broadcast by a receiver. |
| `WebChat.FirstCandidate` | web_mesh_chat.py:42-46 | Returns the address after the first `inet` word that is followed by a private address, or nothing if there is no such word. |
| `WebChat.LineAddress` | web_mesh_chat.py:40-46 | A line contributes an address only if it has `inet ` and no `127.0.0.1`. On such a line the address is the first candidate among the stripped line's whitespace-separated words. It starts with `192.168.`, `10.` or `172.`, has no `/prefix` and no whitespace. |
| `WebChat.LineAddressRoundTrip` | web_mesh_chat.py:40-46 | The line `inet IP/BITS`, for a private, blank-free `IP` and a line without `127.0.0.1`, yields exactly `IP`. |
| `WebChat.LocalIpFrom` | web_mesh_chat.py:37-46 | The result is the address of the first line that has one, or nothing if no line has one. |
| `WebChat.ParseLocalIp` | web_mesh_chat.py:36-46 | Any address found in the `ip addr` text is private-prefixed and carries no `/prefix` and no whitespace. |
| `WifiDirect.HandleHello` | wifi_direct_termux.py:195-205 | The node's own HELLO, or one missing `node_id` or `username`, changes nothing. Otherwise `peers[id] = {username, sender ip, now}`: a known id keeps its place in the table order and a new id goes last. Nothing is sent. |
| `WifiDirect.Forward` | wifi_direct_termux.py:232-247 | TTL (default 10) is decremented first. A result ≤ 0 is dropped, so an arrival with TTL 1 is not forwarded. Otherwise one copy per known peer IP goes out, in table order. |
| `WifiDirect.HandleMessage` | wifi_direct_termux.py:207-230 | A duplicate or id-less message has no effect. A new id is recorded with no cap. A message to neither self nor `'ALL'` is forwarded and not shown. One to self or `'ALL'` is shown and not forwarded; if it lacks `from_username` or `payload` it is not shown either. A missing `to` stops after recording the id. |
| `WifiDirect.Receive` | wifi_direct_termux.py:177-193 | HELLO and MESSAGE go to their handlers. Other types are ignored. |
| `WifiDirect.Sweep` | wifi_direct_termux.py:271-286 | Exactly the peers with `now - last_seen > 15` go. The rest keep their records and their order. |
| `WifiDirect.FirstNamed` | wifi_direct_termux.py:296-299 | Returns the first peer in table order whose username matches case-insensitively, or nothing if none matches. |
| `WifiDirect.Resolve` | wifi_direct_termux.py:290-303 | `all` in any letter case resolves to `'ALL'`. Otherwise the result is the first case-insensitive username match in table order. It is nothing if there is no match or if that match's id is empty. |
| `WifiDirect.SendMessage` | wifi_direct_termux.py:288-337 | An unknown user sends nothing. For `'ALL'` every peer gets the message; otherwise only the addressed peer does. An empty recipient list sends nothing. Messages have TTL 10. |
| `WifiDirect.HelloThenResolve` | wifi_direct_termux.py:195-205 | After a HELLO from a new name, `send_message` to that name resolves to the sender's id and sends exactly one datagram, to the HELLO's source address. |
| `WifiDirect.ForwardStopsAtOne` | wifi_direct_termux.py:234-237 | TTL 1 is not forwarded. TTL 2 is forwarded to every peer with TTL 1. |
| `WifiDirect.SeenNeverForgets` | wifi_direct_termux.py:212-215 | Once an id is seen, it stays seen through any run of messages, and a later copy is ignored. |
| `WifiDirect.HandleMessagesGrowsSeen` | wifi_direct_termux.py:212-215 | The seen set only grows over a run of messages. |
| `WifiDirect.InterfaceOnLine` | wifi_direct_termux.py:39 | A line without `:` raises. Otherwise the name is the text between the first and the next `:` (or the line's end), stripped, up to its first `@`. It contains no `:` or `@`. |
| `WifiDirect.InterfaceLineRoundTrip` | wifi_direct_termux.py:39 | A header line `N: NAME@LINK: ...` or `N: NAME: ...` yields `NAME`, whatever follows. |
| `WifiDirect.FirstP2pLine` | wifi_direct_termux.py:36-37 | The index of the first line that mentions `p2p-wlan` or `p2p0`, or nothing when no line does. |
| `WifiDirect.DetectInterfaceIn` | wifi_direct_termux.py:36-45 | If no line mentions `p2p-wlan` or `p2p0`, no interface is found. Otherwise the first such line decides. |
| `PacketTracer.HandleHello` | packet_tracer_mesh.py:58-62 | Any id but the node's own sets `peers[id] = (sender ip, now)`. The node's own HELLO changes nothing. |
| `PacketTracer.HandleMessage` | packet_tracer_mesh.py:64-77 | Only an unseen id is processed, and it is recorded. The message is shown if and only if `to` is self or `"ALL"`. It is re-broadcast with `ttl - 1` if and only if `ttl > 0` and `to` is not self. A missing key stops processing at its lookup: no `to` means nothing is shown or sent; a shown message missing `from` or `text` is neither shown nor sent; no `ttl` means nothing is sent. |
| `PacketTracer.Receive` | packet_tracer_mesh.py:51-64 | HELLO and MESSAGE go to their handlers. Other types are ignored. |
| `PacketTracer.SendMessage` | packet_tracer_mesh.py:37-48 | MESSAGE with TTL 5, from this node, with id `node_id_` followed by the time. |
| `PacketTracer.Frame` | packet_tracer_mesh.py:47 | The frame is the JSON text followed by exactly one newline. |
| `PacketTracer.StripUndoesFrame` | packet_tracer_mesh.py:56 | Stripping a received frame gives back the JSON text. |
| `PacketTracer.BroadcastShownAndRelayed` | packet_tracer_mesh.py:70-77 | A fresh `"ALL"` message with positive TTL is both shown and re-broadcast. |
| `PacketTracer.OwnHelloIgnored` | packet_tracer_mesh.py:58-61 | The node's own HELLO never enters its peer table. |
| `PacketTracer.HellosKeepSeen` | packet_tracer_mesh.py:58-67 | Any run of HELLOs leaves the seen set unchanged. |
| `PacketTracer.DuplicateAfterHellosIgnored` | packet_tracer_mesh.py:64-67 | A second copy of a message, arriving after any number of HELLOs, is neither shown nor re-broadcast and changes nothing. |
| `Framing.Drain` | src/mesh/p2p_transport.py:185-188 | Every emitted line is non-empty and newline-free, and the kept buffer holds no newline. |
| `Framing.DrainLosesNothing` | src/mesh/p2p_transport.py:182-188 | The emitted lines are exactly the non-empty `\n`-terminated segments, in order. The segments with their newlines, followed by the kept buffer, rebuild the input byte for byte. |
| `Framing.DrainConcat` | src/mesh/p2p_transport.py:175-188 | Draining `x` and then draining the leftover followed by `y` emits the same lines, and keeps the same buffer, as draining `x + y` at once. |
| `Framing.OneLine` | src/mesh/p2p_transport.py:185-188 | A single non-empty line followed by `\n` comes out as exactly that line and leaves an empty buffer. |
| `Transport.Connect` | src/mesh/p2p_transport.py:163-164 | The connection is entered under its address. A known address keeps its place in the table order and a new one goes last, which is the order a broadcast writes in. |
| `Transport.ReceiveChunk` | src/mesh/p2p_transport.py:173-201 | A stopped transport, a failed `recv` or an empty chunk ends the loop and removes that address from `connections`, handing on no line. A callback that raises on line `k` ends the loop the same way, after handing on lines 0 to `k` and none after. Otherwise the loop goes on, the emitted lines (only if a callback is set) are the non-empty segments of buffer + chunk, and segments plus the kept buffer rebuild buffer + chunk. |
| `Transport.FeedIsDrain` | src/mesh/p2p_transport.py:175-188 | However the stream is cut into chunks, the loop emits the same lines and keeps the same buffer as draining the whole stream at once. |
| `Transport.BluetoothSend` | src/mesh/p2p_transport.py:135-154 | A truthy, connected target gets the data alone, and the result is that write's success. Otherwise every connection gets it, in table order, and the result is whether `connections` is non-empty. |
| `Transport.BluetoothStop` | src/mesh/p2p_transport.py:203-214 | `running` is false and `connections` is empty. |
| `Transport.SendAfterStop` | src/mesh/p2p_transport.py:203-214 | After `stop`, a send writes nowhere and returns false. |
| `Transport.ConnectedPeerIsUnicast` | src/mesh/p2p_transport.py:141-144 | A newly connected address can be written to alone. |
| `Transport.ClosedPeerNotTargeted` | src/mesh/p2p_transport.py:195-197 | After a connection's loop ends, for whatever reason, a send aimed at it falls back to the remaining connections, none of which is it. |
| `Transport.UdpSend` | src/mesh/p2p_transport.py:302-318 | Without a socket, or when not running, nothing is sent and the result is false. Otherwise one datagram goes to `(target, port)` for a truthy target, or else to `("255.255.255.255", port)`, and the result is the write's success. |
| `Transport.UdpStop` | src/mesh/p2p_transport.py:334-336 | The transport is no longer running. The port is unchanged. |
| `Transport.UdpSendAfterStop` | src/mesh/p2p_transport.py:307-308 | After `stop`, a UDP send writes nothing and returns false. |

## Left out

- Sockets, `recvfrom`/`sendto`, broadcast addresses on the wire, and Bluetooth and PyBluez calls (`start_server`, `start_client`, `scan_devices`, `find_service`, advertising) are I/O. Sends are output lists and write success is an oracle. `Transport.Connect` stands for the table update those calls make.
- Threads, locks, and the heartbeat and cleanup `while`/`sleep` loops are concurrency and timing. One HELLO/MESSAGE step and one sweep are modelled. The one lock modelled is the web node's, as a flag saying whether the cleanup thread holds it for good. The periodic HELLO broadcasts of the chat nodes are not modelled.
- Timestamps are whole seconds. Python's float `time.time()` is only compared against the 15-second threshold.
- JSON encoding and decoding are library calls. Packets are records of optional string fields, so non-string JSON values (numbers, `null`, nested objects) are not modelled. A `null` `ttl` or a non-numeric `ttl`, which raise in `int(...)` or `>` in the source, are outside the model.
- The `timestamp` fields of packets and inbox entries are not modelled. Neither are the `on_message` callback of the routed node and its ACK handling, which does nothing.
- `_get_local_ip` runs `ip addr` and falls back to a UDP socket trick. Only the parsing of given text is modelled, and `None` stands for "fall back". `detect_p2p_interface`, `enable_wifi_direct`, `get_wifi_ip` and `setup_socket` run commands. Only the line parsing of `detect_p2p_interface` is modelled.
- `WiFiDirectTransport.start_server`/`start_client` (which sends an initial HELLO) and its receive loop (which `rstrip`s `\n`) are I/O and not modelled.
- The tkinter GUIs (`src/gui/gui_chat.py`, `MeshChatGUI`), the FastAPI/WebSocket server and HTML, CLI `main` loops, the module-level demo of packet_tracer_mesh.py, `src/mesh/run_node.py` and `setup_check.py` are user interface or tooling.
- Read-only accessors (`get_inbox`, `get_peers`, `get_active_peers`, `list_peers`, `show_peer_details`) only copy state.
- Console output is not modelled: new-peer and lost-peer messages, and the WiFi Direct "disconnected" line on a sweep. `TermuxChat.Sweep` reports the lost set instead.
- `Text.IsSpace`: `strip` and `split` treat the ASCII whitespace (including 0x1c-0x1f) as blank, but not the non-ASCII characters Python also treats as whitespace (0x85, 0xa0, U+2028 and the like). `upper` and `lower` are ASCII-only too.
- `WebChat.ParseLocalIp`: states only the shape of the address found. Which line it comes from is stated by `WebChat.LocalIpFrom`.
- `WifiDirect.Resolve`: compares usernames with ASCII case folding, whereas Python's `lower()` is Unicode-aware.
- `MeshChat.SendMessage`, `TermuxChat.SendMessage`, `WebChat.SendMessage`: the uuid suffix is any string, not specifically 8 hex digits. The two Termux and web variants do not return the send result.

## Findings

| source | as written | input that shows it | evidently intended | confidence | as-written member | corrected member |
|---|---|---|---|---|---|---|
| src/mesh/mesh_node.py:155 | `_handle_data` sets `prev_hop` to the node's own id before calling `_forward`. The flood in `_forward` then skips only a neighbour named like the node itself, so the neighbour the packet came from gets its own packet back. | Node B has neighbours A (127.0.0.1:5101) and C (127.0.0.1:5103) and no route to D. It receives DATA `{msg_id "A:1:x", source "A", dest "D", ttl 3, prev_hop "A"}`. B sends the relayed copy to both A and C. | The flood skips the neighbour named by the incoming `prev_hop`, as the comment on line 202 says. | not executed | `RoutedNode.HandleDataAsWritten` | `RoutedNode.HandleData` |
| web_mesh_chat.py:188 | `_cleanup_loop` calls `_notify_peer_change` while still holding `self._lock`. Each notice is built with `get_peers()`, which takes the same non-reentrant `threading.Lock` (line 196), and `start_server` always registers a callback (line 749). | Node with peer B last heard at time 0 and the callback registered by `start_server`, cleanup pass at time 20. B is evicted, `get_peers` blocks forever (even with no browser connected), no peer-update notice is sent, and the next HELLO from another node blocks the receive loop at line 125 (`WebChat.EvictionDeadlocks`, `WebChat.StaleSweepExample`). | Evict under the lock, release it, then notify. | not executed | `WebChat.SweepAsWritten` | `WebChat.Sweep` |

=== FILE: flood.dfy ===
/**
 * The MESSAGE handling that mesh_chat.py, mesh_chat_termux.py and
 * web_mesh_chat.py each carry a copy of: duplicate suppression by
 * `msg_id`, the capped seen set, local delivery, and re-broadcast while
 * `ttl > 0` with the ttl decreased by one.  The copies differ only in
 * which destinations count as local, which is a parameter here.
 */
module Flood {
  import opened Wrappers
  import SeenCache

  /** TTL stamped on every message the chat nodes originate. */
  const MessageTtl := 10

  /** The UDP port every broadcast chat node binds and broadcasts to. */
  const Port := 9999

  /** A decoded datagram of the broadcast chats; a key missing from the JSON object is `None`. */
  datatype Packet = Packet(
    kind: Option<string>,
    nodeId: Option<string>,
    msgId: Option<string>,
    from: Option<string>,
    to: Option<string>,
    payload: Option<string>,
    ttl: Option<int>)

  /** Seen ids; a missing `msg_id` is recorded as `None`, as Python records the key lookup's result. */
  type SeenIds = set<Option<string>>

  datatype Outcome =
    | Duplicate
    | Deliver(from: Option<string>, payload: Option<string>)
    | Rebroadcast(packet: Packet)
    | Expired

  datatype Handled = Handled(seen: SeenIds, outcome: Outcome)

  /** `q` is the copy of `p` that a relay re-broadcasts: the same packet with one hop less. */
  predicate Relays(p: Packet, q: Packet)
  {
    p.ttl.GetOr(0) > 0 && q == p.(ttl := Some(p.ttl.GetOr(0) - 1))
  }

  /** The listing of the seen set that recording `p`'s id may need. */
  ghost predicate CanRecord(seen: SeenIds, p: Packet, order: seq<Option<string>>)
  {
    p.msgId !in seen ==> SeenCache.OrderFits(seen, p.msgId, order)
  }

  /**
   * One MESSAGE: an id already seen is dropped with no effect; otherwise the
   * id is recorded, a local message is delivered and never re-sent, and any
   * other message is re-broadcast exactly when its ttl (missing counts as 0)
   * is positive.
   */
  function HandleMessage(seen: SeenIds, p: Packet, isLocal: bool, order: seq<Option<string>>): (r: Handled)
    requires CanRecord(seen, p, order)
    ensures p.msgId in seen <==> r.outcome.Duplicate?
    ensures p.msgId in seen ==> r.seen == seen
    ensures p.msgId !in seen ==> r.seen == SeenCache.Record(seen, p.msgId, order)
    ensures r.outcome.Deliver? <==> p.msgId !in seen && isLocal
    ensures r.outcome.Deliver? ==> r.outcome.from == p.from && r.outcome.payload == p.payload
    ensures r.outcome.Rebroadcast? <==> p.msgId !in seen && !isLocal && p.ttl.GetOr(0) > 0
    ensures r.outcome.Rebroadcast? ==> Relays(p, r.outcome.packet)
  {
    if p.msgId in seen then Handled(seen, Duplicate)
    else
      var seen' := SeenCache.Record(seen, p.msgId, order);
      if isLocal then Handled(seen', Deliver(p.from, p.payload))
      else
        var ttl := p.ttl.GetOr(0);
        if ttl > 0 then Handled(seen', Rebroadcast(p.(ttl := Some(ttl - 1))))
        else Handled(seen', Expired)
  }

  /**
   * Duplicate suppression: while the seen set has room, handling a message a
   * second time is a no-op, whatever the first handling did.
   */
  lemma SecondCopyIgnored(seen: SeenIds, p: Packet, isLocal: bool, order: seq<Option<string>>,
                          isLocal2: bool, order2: seq<Option<string>>)
    requires |seen| < SeenCache.MaxSeen
    requires CanRecord(seen, p, order)
    ensures CanRecord(HandleMessage(seen, p, isLocal, order).seen, p, order2)
    ensures HandleMessage(HandleMessage(seen, p, isLocal, order).seen, p, isLocal2, order2)
         == Handled(HandleMessage(seen, p, isLocal, order).seen, Duplicate)
  {
    var first := HandleMessage(seen, p, isLocal, order);
    if p.msgId !in seen {
      assert |seen + {p.msgId}| <= |seen| + 1;
    }
    assert p.msgId in first.seen;
  }

  /** A chain of relays, each copy the re-broadcast of the one before. */
  ghost predicate RelayChain(ps: seq<Packet>)
  {
    forall i :: 0 < i < |ps| ==> Relays(ps[i - 1], ps[i])
  }

  /**
   * TTL bounds flooding: along any chain of re-broadcasts the ttl drops by
   * exactly one per hop and stays non-negative, so a message that starts
   * with ttl `t` is re-broadcast at most `t` times along any path.
   */
  lemma {:induction false} RelayChainBounded(ps: seq<Packet>)
    requires |ps| > 0 && RelayChain(ps)
    ensures forall i :: 0 <= i < |ps| ==> ps[i].ttl.GetOr(0) == ps[0].ttl.GetOr(0) - i
    ensures |ps| - 1 <= if ps[0].ttl.GetOr(0) > 0 then ps[0].ttl.GetOr(0) else 0
  {
    if |ps| > 1 {
      var tail := ps[1..];
      assert RelayChain(tail) by {
        forall i | 0 < i < |tail|
          ensures Relays(tail[i - 1], tail[i])
        {
          assert Relays(ps[i], ps[i + 1]);
        }
      }
      RelayChainBounded(tail);
      assert Relays(ps[0], ps[1]);
      forall i | 0 < i < |ps|
        ensures ps[i].ttl.GetOr(0) == ps[0].ttl.GetOr(0) - i
      {
        assert ps[i] == tail[i - 1];
      }
      assert ps[|ps| - 1].ttl.GetOr(0) == tail[|tail| - 1].ttl.GetOr(0);
      var last := ps[|ps| - 2];
      assert Relays(last, ps[|ps| - 1]);
    }
  }
}

=== FILE: framing.dfy ===
/**
 * Newline framing of the Bluetooth byte stream (BluetoothTransport's
 * receive loop): received chunks are appended to a buffer, and while the
 * buffer holds a `\n` the bytes before the first one are cut off as a line
 * (handed on only when non-empty) and the bytes after it become the buffer.
 */
module Framing {

  newtype byte = x: int | 0 <= x < 256

  type Bytes = seq<byte>

  const Newline: byte := 10

  datatype Drained = Drained(lines: seq<Bytes>, rest: Bytes)

  function FirstNewline(buf: Bytes): (i: nat)
    requires Newline in buf
    ensures i < |buf| && buf[i] == Newline && Newline !in buf[..i]
  {
    if buf[0] == Newline then 0 else 1 + FirstNewline(buf[1..])
  }

  predicate IsLine(line: Bytes)
  {
    |line| > 0 && Newline !in line
  }

  /**
   * The inner `while b'\n' in buffer` loop: the lines cut from `buf`, in
   * order, and what is left in the buffer.  Every line is non-empty and
   * newline-free, and the leftover holds no newline.
   */
  function Drain(buf: Bytes): (r: Drained)
    ensures Newline !in r.rest
    ensures forall i :: 0 <= i < |r.lines| ==> IsLine(r.lines[i])
    decreases |buf|
  {
    if Newline !in buf then Drained([], buf)
    else
      var i := FirstNewline(buf);
      var tail := Drain(buf[i + 1..]);
      if i > 0 then Drained([buf[..i]] + tail.lines, tail.rest) else tail
  }

  /** Every `\n`-terminated segment of `buf`, empty ones included: `buf.split(b'\n')` without its last piece. */
  function Segments(buf: Bytes): (segs: seq<Bytes>)
    ensures forall i :: 0 <= i < |segs| ==> Newline !in segs[i]
    decreases |buf|
  {
    if Newline !in buf then []
    else
      var i := FirstNewline(buf);
      [buf[..i]] + Segments(buf[i + 1..])
  }

  /** The segments written back out, each followed by its newline. */
  function Terminated(segs: seq<Bytes>): Bytes
  {
    if |segs| == 0 then [] else segs[0] + [Newline] + Terminated(segs[1..])
  }

  /** The non-empty segments, in order. */
  function NonEmpty(segs: seq<Bytes>): (r: seq<Bytes>)
    ensures |r| <= |segs|
  {
    if |segs| == 0 then []
    else if |segs[0]| > 0 then [segs[0]] + NonEmpty(segs[1..])
    else NonEmpty(segs[1..])
  }

  /** One turn of the loop, on the segments: the first one is cut off. */
  lemma SegmentsStep(buf: Bytes)
    requires Newline in buf
    ensures Segments(buf) == [buf[..FirstNewline(buf)]] + Segments(buf[FirstNewline(buf) + 1..])
  {
  }

  /** One turn of the loop: the first segment is emitted when non-empty, and the loop goes on after its newline. */
  lemma DrainStep(buf: Bytes)
    requires Newline in buf
    ensures var i := FirstNewline(buf);
      && Drain(buf).lines == (if i > 0 then [buf[..i]] else []) + Drain(buf[i + 1..]).lines
      && Drain(buf).rest == Drain(buf[i + 1..]).rest
  {
  }

  /** The non-empty segments, one segment at a time. */
  lemma NonEmptyStep(buf: Bytes)
    requires Newline in buf
    ensures var i := FirstNewline(buf);
      NonEmpty(Segments(buf)) == (if i > 0 then [buf[..i]] else []) + NonEmpty(Segments(buf[i + 1..]))
  {
    SegmentsStep(buf);
    NonEmptyCons(buf[..FirstNewline(buf)], Segments(buf[FirstNewline(buf) + 1..]));
  }

  /** `NonEmpty` keeps a leading segment exactly when it is non-empty. */
  lemma NonEmptyCons(seg: Bytes, segs: seq<Bytes>)
    ensures NonEmpty([seg] + segs) == (if |seg| > 0 then [seg] else []) + NonEmpty(segs)
  {
    assert ([seg] + segs)[1..] == segs;
  }

  /** Appending bytes after the first newline moves neither it nor what precedes it. */
  lemma FirstNewlineAppend(x: Bytes, y: Bytes)
    requires Newline in x
    ensures var i := FirstNewline(x);
      && Newline in x + y
      && FirstNewline(x + y) == i
      && (x + y)[..i] == x[..i]
      && (x + y)[i + 1..] == x[i + 1..] + y
  {
    var i := FirstNewline(x);
    assert (x + y)[..i] == x[..i];
    FirstNewlineUnique(x + y, i);
  }

  /** A buffer is the bytes before index `i`, the byte at `i`, and the bytes after it. */
  lemma SplitAt(buf: Bytes, i: nat)
    requires i < |buf|
    ensures buf == buf[..i] + [buf[i]] + buf[i + 1..]
  {
  }

  /**
   * Nothing is lost: the emitted lines are exactly the non-empty segments,
   * and the segments with their newlines, followed by the leftover, are the
   * buffer byte for byte.
   */
  lemma {:induction false} DrainLosesNothing(buf: Bytes)
    ensures Drain(buf).lines == NonEmpty(Segments(buf))
    ensures Terminated(Segments(buf)) + Drain(buf).rest == buf
  {
    DrainEmitsNonEmpty(buf);
    DrainRebuilds(buf);
  }

  /** The emitted lines are the non-empty segments. */
  lemma {:induction false} DrainEmitsNonEmpty(buf: Bytes)
    ensures Drain(buf).lines == NonEmpty(Segments(buf))
    decreases |buf|
  {
    if Newline in buf {
      var i := FirstNewline(buf);
      DrainEmitsNonEmpty(buf[i + 1..]);
      DrainStep(buf);
      NonEmptyStep(buf);
    }
  }

  /** The segments with their newlines, then the leftover, rebuild the buffer. */
  lemma {:induction false} DrainRebuilds(buf: Bytes)
    ensures Terminated(Segments(buf)) + Drain(buf).rest == buf
    decreases |buf|
  {
    if Newline in buf {
      var i := FirstNewline(buf);
      var line := buf[..i];
      var after := buf[i + 1..];
      var segs := Segments(after);
      var rest := Drain(after).rest;
      calc {
        Terminated(Segments(buf)) + Drain(buf).rest;
        { SegmentsStep(buf); DrainStep(buf); }
        Terminated([line] + segs) + rest;
        { TerminatedCons(line, segs); }
        line + [Newline] + Terminated(segs) + rest;
        { AppendAssoc(line + [Newline], Terminated(segs), rest); }
        line + [Newline] + (Terminated(segs) + rest);
        { DrainRebuilds(after); }
        line + [Newline] + after;
        { SplitAt(buf, i); }
        buf;
      }
    }
  }

  /** `Terminated` puts the first segment back with its newline. */
  lemma TerminatedCons(seg: Bytes, segs: seq<Bytes>)
    ensures Terminated([seg] + segs) == seg + [Newline] + Terminated(segs)
  {
    assert ([seg] + segs)[1..] == segs;
  }

  /** Byte strings concatenate associatively (a rewriting step in `DrainRebuilds`). */
  lemma AppendAssoc(a: Bytes, b: Bytes, c: Bytes)
    ensures a + b + c == a + (b + c)
  {
  }

  /** Line lists concatenate associatively (a rewriting step in `DrainConcat`). */
  lemma LinesAssoc(a: seq<Bytes>, b: seq<Bytes>, c: seq<Bytes>)
    ensures a + (b + c) == a + b + c
  {
  }

  /**
   * Re-chunking does not matter: draining `x` and then the leftover followed
   * by `y` emits the same lines, and leaves the same buffer, as draining `x + y`
   * at once.  So what the receiver emits depends only on the bytes received,
   * never on how the radio split them into chunks.
   */
  lemma {:induction false} DrainConcat(x: Bytes, y: Bytes)
    ensures Drain(x + y).lines == Drain(x).lines + Drain(Drain(x).rest + y).lines
    ensures Drain(x + y).rest == Drain(Drain(x).rest + y).rest
    decreases |x|
  {
    if Newline !in x {
      assert Drain(x) == Drained([], x);
      assert Drain(x).lines + Drain(x + y).lines == Drain(x + y).lines;
    } else {
      var a := x[FirstNewline(x) + 1..];
      var pre: seq<Bytes> := if FirstNewline(x) > 0 then [x[..FirstNewline(x)]] else [];
      FirstNewlineAppend(x, y);
      DrainStep(x);
      DrainStep(x + y);
      DrainConcat(a, y);
      calc {
        Drain(x + y).lines;
        pre + Drain(a + y).lines;
        pre + (Drain(a).lines + Drain(Drain(a).rest + y).lines);
        { LinesAssoc(pre, Drain(a).lines, Drain(Drain(a).rest + y).lines); }
        pre + Drain(a).lines + Drain(Drain(a).rest + y).lines;
      }
    }
  }

  /** The first newline is the one before which no newline occurs. */
  lemma FirstNewlineUnique(buf: Bytes, i: nat)
    requires i < |buf| && buf[i] == Newline && Newline !in buf[..i]
    ensures FirstNewline(buf) == i
  {

  }

  /** One complete line followed by its newline comes out as exactly that line, leaving an empty buffer. */
  lemma OneLine(line: Bytes)
    requires IsLine(line)
    ensures Drain(line + [Newline]) == Drained([line], [])
  {
    var buf := line + [Newline];
    FirstNewlineUnique(buf, |line|);
    assert buf[..|line|] == line;
    assert buf[|line| + 1..] == [];
  }
}

=== FILE: mesh_chat.dfy ===
/**
 * The desktop broadcast chat node of mesh_chat.py: a peer table of
 * last-seen times, a table of direct routes, and a capped seen set.  Every
 * datagram is a UDP broadcast on port 9999, so a step returns the packets
 * it broadcasts and the notifications it raises for the GUI.
 */
module MeshChat {
  import opened Wrappers
  import opened Text
  import opened Flood
  import SeenCache
  import Staleness

  datatype Node = Node(
    id: string,
    localIp: string,
    peers: map<string, int>,
    routes: map<string, string>,
    seen: SeenIds)

  datatype Event =
    | PeersUpdated
    | Message(from: Option<string>, payload: Option<string>)

  datatype Step = Step(node: Node, broadcasts: seq<Packet>, events: seq<Event>)

  function NewNode(id: string, localIp: string): Node
  {
    Node(id, localIp, map[], map[], {})
  }

  /**
   * HELLO: a missing id or the node's own id is ignored; otherwise the peer is
   * stamped with `now`, becomes its own next hop, and the GUI is told.
   */
  function HandleHello(n: Node, p: Packet, now: int): (r: Step)
    ensures !Truthy(p.nodeId) || p.nodeId.value == n.id ==> r == Step(n, [], [])
    ensures Truthy(p.nodeId) && p.nodeId.value != n.id ==>
      var id := p.nodeId.value;
      && r.node == n.(peers := n.peers[id := now], routes := n.routes[id := id])
      && r.broadcasts == [] && r.events == [PeersUpdated]
  {
    if !Truthy(p.nodeId) || p.nodeId.value == n.id then Step(n, [], [])
    else
      var id := p.nodeId.value;
      Step(n.(peers := n.peers[id := now], routes := n.routes[id := id]), [], [PeersUpdated])
  }

  /**
   * MESSAGE: a duplicate has no effect; a new id is recorded (with the 1000/500
   * cap); a message to this node is handed to the GUI and not forwarded; any
   * other is re-broadcast with one hop less while its ttl is positive.
   */
  function HandleMessage(n: Node, p: Packet, order: seq<Option<string>>): (r: Step)
    requires CanRecord(n.seen, p, order)
    ensures p.msgId in n.seen ==> r == Step(n, [], [])
    ensures p.msgId !in n.seen ==> r.node == n.(seen := SeenCache.Record(n.seen, p.msgId, order))
    ensures p.msgId !in n.seen && p.to == Some(n.id) ==>
      r.broadcasts == [] && r.events == [Message(p.from, p.payload)]
    ensures p.msgId !in n.seen && p.to != Some(n.id) ==>
      r.events == [] && (|r.broadcasts| == 1 <==> p.ttl.GetOr(0) > 0) && |r.broadcasts| <= 1
    ensures forall q :: q in r.broadcasts ==> Relays(p, q)
  {
    var h := Flood.HandleMessage(n.seen, p, p.to == Some(n.id), order);
    var n' := n.(seen := h.seen);
    match h.outcome
    case Duplicate => Step(n, [], [])
    case Deliver(from, payload) => Step(n', [], [Message(from, payload)])
    case Rebroadcast(q) => Step(n', [q], [])
    case Expired => Step(n', [], [])
  }

  /** `_handle_packet`: HELLO and MESSAGE are handled, every other type is ignored. */
  function HandlePacket(n: Node, p: Packet, now: int, order: seq<Option<string>>): (r: Step)
    requires CanRecord(n.seen, p, order)
    ensures p.kind != Some("HELLO") && p.kind != Some("MESSAGE") ==> r == Step(n, [], [])
    ensures p.kind == Some("HELLO") ==> r == HandleHello(n, p, now)
    ensures p.kind == Some("MESSAGE") ==> r == HandleMessage(n, p, order)
  {
    if p.kind == Some("HELLO") then HandleHello(n, p, now)
    else if p.kind == Some("MESSAGE") then HandleMessage(n, p, order)
    else Step(n, [], [])
  }

  /** The receive loop: a datagram whose source address is the node's own IP (its own broadcast) is skipped. */
  function Receive(n: Node, senderIp: string, p: Packet, now: int, order: seq<Option<string>>): (r: Step)
    requires CanRecord(n.seen, p, order)
    ensures senderIp == n.localIp ==> r == Step(n, [], [])
    ensures senderIp != n.localIp ==> r == HandlePacket(n, p, now, order)
  {
    if senderIp == n.localIp then Step(n, [], []) else HandlePacket(n, p, now, order)
  }

  /**
   * One pass of the cleanup loop: exactly the peers last seen more than 15
   * seconds ago are dropped, with their routes; every other peer and route is
   * kept; the GUI is told iff something was dropped.
   */
  function Sweep(n: Node, now: int): (r: Step)
    ensures r.node.peers.Keys == n.peers.Keys - Staleness.StaleIds(n.peers, now)
    ensures forall k :: k in r.node.peers ==> r.node.peers[k] == n.peers[k]
    ensures r.node.routes.Keys == n.routes.Keys - Staleness.StaleIds(n.peers, now)
    ensures forall k :: k in r.node.routes ==> r.node.routes[k] == n.routes[k]
    ensures r.node.seen == n.seen && r.node.id == n.id && r.node.localIp == n.localIp
    ensures r.broadcasts == []
    ensures r.events == [PeersUpdated] <==> Staleness.StaleIds(n.peers, now) != {}
    ensures r.events == [] <==> Staleness.StaleIds(n.peers, now) == {}
  {
    var stale := Staleness.StaleIds(n.peers, now);
    var n' := n.(peers := Staleness.Sweep(n.peers, now), routes := n.routes - stale);
    Step(n', [], if stale != {} then [PeersUpdated] else [])
  }

  /** The id `send_message` gives a message: `node_id:<milliseconds>:<8 hex digits>`. */
  function MessageId(nodeId: string, millis: nat, nonce: string): string
  {
    nodeId + ":" + ShowNat(millis) + ":" + nonce
  }

  datatype Sent = Sent(packet: Packet, ok: bool)

  /**
   * `send_message`: one MESSAGE broadcast with ttl 10 and an id prefixed by
   * the node's id; the result is whether the socket accepted it.  The node's
   * own state does not change (its own id is not recorded as seen).
   */
  function SendMessage(n: Node, dest: string, text: string, millis: nat, nonce: string, sendOk: bool): (r: Sent)
    ensures r.packet.kind == Some("MESSAGE") && r.packet.ttl == Some(MessageTtl)
    ensures r.packet.from == Some(n.id) && r.packet.to == Some(dest) && r.packet.payload == Some(text)
    ensures r.packet.msgId.Some? && StartsWith(r.packet.msgId.value, n.id + ":")
    ensures r.ok == sendOk
  {
    Sent(Packet(Some("MESSAGE"), None, Some(MessageId(n.id, millis, nonce)), Some(n.id), Some(dest), Some(text), Some(MessageTtl)),
         sendOk)
  }

  /** What a node sends reaches its addressee: the addressee, not having seen it, shows `(sender, text)` and does not re-send it. */
  lemma SentMessageDelivered(a: Node, b: Node, text: string, millis: nat, nonce: string, sendOk: bool,
                             now: int, order: seq<Option<string>>, senderIp: string)
    requires senderIp != b.localIp
    requires SendMessage(a, b.id, text, millis, nonce, sendOk).packet.msgId !in b.seen
    requires CanRecord(b.seen, SendMessage(a, b.id, text, millis, nonce, sendOk).packet, order)
    ensures var r := Receive(b, senderIp, SendMessage(a, b.id, text, millis, nonce, sendOk).packet, now, order);
      r.events == [Message(Some(a.id), Some(text))] && r.broadcasts == []
  {
  }

  /** A third node relays a freshly sent message once, with ttl 9. */
  lemma SentMessageRelayed(a: Node, c: Node, dest: string, text: string, millis: nat, nonce: string, sendOk: bool,
                           now: int, order: seq<Option<string>>, senderIp: string)
    requires senderIp != c.localIp && dest != c.id
    requires SendMessage(a, dest, text, millis, nonce, sendOk).packet.msgId !in c.seen
    requires CanRecord(c.seen, SendMessage(a, dest, text, millis, nonce, sendOk).packet, order)
    ensures var p := SendMessage(a, dest, text, millis, nonce, sendOk).packet;
      var r := Receive(c, senderIp, p, now, order);
      r.broadcasts == [p.(ttl := Some(MessageTtl - 1))] && r.events == []
  {
  }

  /** A peer whose HELLO arrives at `t` keeps its entry and its direct route through every sweep up to `t + 15`, and loses both after. */
  lemma HelloThenSweep(n: Node, p: Packet, t: int, now: int)
    requires Truthy(p.nodeId) && p.nodeId.value != n.id
    ensures var m := Sweep(HandleHello(n, p, t).node, now).node;
      (p.nodeId.value in m.peers <==> now <= t + Staleness.StaleAfter)
      && (p.nodeId.value in m.routes <==> now <= t + Staleness.StaleAfter)
  {
    var id := p.nodeId.value;
    var h := HandleHello(n, p, t).node;
    assert id in h.peers && h.peers[id] == t;
    assert id in Staleness.StaleIds(h.peers, now) <==> now > t + Staleness.StaleAfter;
  }
}

=== FILE: ordmaps.dfy ===
/**
 * Insertion-ordered dictionaries, the semantics of a Python `dict`: a map
 * together with the order in which its keys were first inserted.  Updating
 * an existing key keeps its position, a new key goes last, and deleting a
 * key leaves the others in their order.  Iterating the dict (`.items()`,
 * `.values()`) follows that order, which is what makes a flood's send
 * order, or "the first peer whose name matches", well defined.
 */
module OrdMaps {
  import opened Wrappers

  ghost predicate Distinct<T>(s: seq<T>)
  {
    forall i, j :: 0 <= i < j < |s| ==> s[i] != s[j]
  }

  datatype Raw<K, V> = Raw(keys: seq<K>, entries: map<K, V>)

  ghost predicate WellFormed<K(!new), V>(d: Raw<K, V>)
  {
    Distinct(d.keys) && forall k :: k in d.entries <==> k in d.keys
  }

  type OrdMap<K(!new), V> = d: Raw<K, V> | WellFormed(d) witness Raw([], map[])

  function Empty<K(!new), V>(): (d: OrdMap<K, V>)
    ensures d.entries == map[] && d.keys == []
  {
    Raw([], map[])
  }

  /** `d.get(k)`. */
  function Get<K(!new), V>(d: OrdMap<K, V>, k: K): (r: Option<V>)
    ensures r.Some? <==> k in d.entries
    ensures r.Some? ==> r.value == d.entries[k]
  {
    if k in d.entries then Some(d.entries[k]) else None
  }

  /** `d[k] = v`: the entry is replaced in place, or appended when `k` is new. */
  function Put<K(!new), V>(d: OrdMap<K, V>, k: K, v: V): (r: OrdMap<K, V>)
    ensures r.entries == d.entries[k := v]
    ensures k in d.entries ==> r.keys == d.keys
    ensures k !in d.entries ==> r.keys == d.keys + [k]
  {
    if k in d.entries then Raw(d.keys, d.entries[k := v])
    else Raw(d.keys + [k], d.entries[k := v])
  }

  /** The keys of `ks` that `keep` accepts, in their original order. */
  function KeepKeys<K(!new), V>(ks: seq<K>, m: map<K, V>, keep: (K, V) -> bool): (r: seq<K>)
    requires forall k :: k in ks ==> k in m
    ensures forall k :: k in r <==> k in ks && keep(k, m[k])
    ensures Distinct(ks) ==> Distinct(r)
    ensures |r| <= |ks|
  {
    if |ks| == 0 then []
    else
      var rest := KeepKeys(ks[1..], m, keep);
      assert Distinct(ks) ==> ks[0] !in ks[1..];
      if keep(ks[0], m[ks[0]]) then [ks[0]] + rest else rest
  }

  /** The dict without the entries `keep` rejects; the survivors keep their values and their order. */
  function Filter<K(!new), V>(d: OrdMap<K, V>, keep: (K, V) -> bool): (r: OrdMap<K, V>)
    ensures forall k :: k in r.entries <==> k in d.entries && keep(k, d.entries[k])
    ensures forall k :: k in r.entries ==> r.entries[k] == d.entries[k]
    ensures r.keys == KeepKeys(d.keys, d.entries, keep)
  {
    Raw(KeepKeys(d.keys, d.entries, keep),
        map k | k in d.entries && keep(k, d.entries[k]) :: d.entries[k])
  }

  /** `del d[k]` when present; nothing otherwise. */
  function Remove<K(!new), V>(d: OrdMap<K, V>, k: K): (r: OrdMap<K, V>)
    ensures r.entries == d.entries - {k}
  {
    Filter(d, (k': K, v: V) => k' != k)
  }

  /** `list(d.items())`, in insertion order. */
  function Items<K(!new), V>(d: OrdMap<K, V>): (r: seq<(K, V)>)
    ensures |r| == |d.keys|
    ensures forall i :: 0 <= i < |r| ==> r[i].0 == d.keys[i] && r[i].1 == d.entries[d.keys[i]]
  {
    seq(|d.keys|, i requires 0 <= i < |d.keys| => (d.keys[i], d.entries[d.keys[i]]))
  }

  /** `list(d.values())`, in insertion order. */
  function Values<K(!new), V>(d: OrdMap<K, V>): (r: seq<V>)
    ensures |r| == |d.keys|
    ensures forall i :: 0 <= i < |r| ==> r[i] == d.entries[d.keys[i]]
  {
    seq(|d.keys|, i requires 0 <= i < |d.keys| => d.entries[d.keys[i]])
  }

  /** A duplicate-free sequence has as many distinct elements as positions. */
  lemma {:induction false} DistinctCard<T>(s: seq<T>)
    requires Distinct(s)
    ensures |set x | x in s| == |s|
  {
    if |s| > 0 {
      DistinctCard(s[1..]);
      assert (set x | x in s) == (set x | x in s[1..]) + {s[0]};
      assert s[0] !in s[1..];
    }
  }

  /** The number of keys equals the number of entries. */
  lemma KeysCard<K(!new), V>(d: OrdMap<K, V>)
    ensures |d.entries| == |d.keys|
  {
    DistinctCard(d.keys);
    assert d.entries.Keys == set x | x in d.keys;
  }
}

=== FILE: packet_tracer.dfy ===
/**
 * The minimal node of packet_tracer_mesh.py.  Datagrams are JSON text plus
 * a trailing newline, broadcast to 192.168.0.255:9999, and stripped before
 * parsing.  Unlike the other broadcast nodes it both delivers AND
 * re-broadcasts a message addressed to "ALL".  Keys are read with
 * `packet[key]`, so a missing key aborts the handling at that lookup.
 */
module PacketTracer {
  import opened Wrappers
  import opened Text

  const BroadcastIp := "192.168.0.255"
  const Port := 9999
  const MessageTtl := 5
  const Everyone := "ALL"

  datatype Packet = Packet(
    kind: Option<string>,
    nodeId: Option<string>,
    msgId: Option<string>,
    from: Option<string>,
    to: Option<string>,
    text: Option<string>,
    ttl: Option<int>)

  datatype Peer = Peer(ip: string, lastSeen: int)

  datatype Node = Node(id: string, peers: map<string, Peer>, seen: set<string>)

  datatype Step = Step(node: Node, broadcasts: seq<Packet>, shown: seq<(string, string)>)

  /** HELLO: any id but the node's own (re)records the sender's address and the time. */
  function HandleHello(n: Node, p: Packet, senderIp: string, now: int): (r: Step)
    ensures r.broadcasts == [] && r.shown == []
    ensures p.nodeId.None? || p.nodeId == Some(n.id) ==> r.node == n
    ensures p.nodeId.Some? && p.nodeId != Some(n.id) ==>
      r.node == n.(peers := n.peers[p.nodeId.value := Peer(senderIp, now)])
  {
    if p.nodeId.None? || p.nodeId == Some(n.id) then Step(n, [], [])
    else Step(n.(peers := n.peers[p.nodeId.value := Peer(senderIp, now)]), [], [])
  }

  predicate ForThisNode(n: Node, p: Packet)
  {
    p.to == Some(n.id) || p.to == Some(Everyone)
  }

  /**
   * MESSAGE: processed only when its id is unseen, and the id is then
   * recorded.  It is shown iff addressed to this node or to "ALL", and
   * re-broadcast with ttl - 1 iff its ttl is positive and it is not addressed
   * to this node, so a message to "ALL" is both shown and re-broadcast.
   */
  function HandleMessage(n: Node, p: Packet): (r: Step)
    ensures p.msgId.None? || p.msgId.value in n.seen ==> r == Step(n, [], [])
    ensures p.msgId.Some? && p.msgId.value !in n.seen ==> r.node == n.(seen := n.seen + {p.msgId.value})
    ensures |r.shown| <= 1 && |r.broadcasts| <= 1
    ensures |r.shown| == 1 ==> ForThisNode(n, p) && p.from.Some? && p.text.Some? && r.shown[0] == (p.from.value, p.text.value)
    ensures |r.broadcasts| == 1 ==>
      && p.ttl.Some? && p.ttl.value > 0 && p.to.Some? && p.to.value != n.id
      && r.broadcasts[0] == p.(ttl := Some(p.ttl.value - 1))
    ensures p.msgId.Some? && p.msgId.value !in n.seen && p.to.None? ==> r.shown == [] && r.broadcasts == []
    ensures p.msgId.Some? && p.msgId.value !in n.seen && ForThisNode(n, p) && (p.from.None? || p.text.None?) ==>
      r.shown == [] && r.broadcasts == []
    ensures p.ttl.None? ==> r.broadcasts == []
    ensures p.msgId.Some? && p.msgId.value !in n.seen && p.to.Some? && (ForThisNode(n, p) ==> p.from.Some? && p.text.Some?) ==>
      && (|r.shown| == 1 <==> ForThisNode(n, p))
      && (p.ttl.Some? ==> (|r.broadcasts| == 1 <==> p.ttl.value > 0 && p.to.value != n.id))
  {
    if p.msgId.None? || p.msgId.value in n.seen then Step(n, [], [])
    else
      var n' := n.(seen := n.seen + {p.msgId.value});
      if p.to.None? then Step(n', [], [])
      else if ForThisNode(n, p) && (p.from.None? || p.text.None?) then Step(n', [], [])
      else
        var shown := if ForThisNode(n, p) then [(p.from.value, p.text.value)] else [];
        if p.ttl.None? then Step(n', [], shown)
        else if p.ttl.value > 0 && p.to.value != n.id then Step(n', [p.(ttl := Some(p.ttl.value - 1))], shown)
        else Step(n', [], shown)
  }

  /** The receive loop's dispatch on `packet["type"]`. */
  function Receive(n: Node, p: Packet, senderIp: string, now: int): (r: Step)
    ensures p.kind != Some("HELLO") && p.kind != Some("MESSAGE") ==> r == Step(n, [], [])
    ensures p.kind == Some("HELLO") ==> r == HandleHello(n, p, senderIp, now)
    ensures p.kind == Some("MESSAGE") ==> r == HandleMessage(n, p)
  {
    if p.kind == Some("HELLO") then HandleHello(n, p, senderIp, now)
    else if p.kind == Some("MESSAGE") then HandleMessage(n, p)
    else Step(n, [], [])
  }

  /** `send_message`: a MESSAGE with ttl 5 and id `node_id + "_" + time`. */
  function SendMessage(n: Node, to: string, text: string, timeText: string): (p: Packet)
    ensures p.kind == Some("MESSAGE") && p.ttl == Some(MessageTtl)
    ensures p.from == Some(n.id) && p.to == Some(to) && p.text == Some(text)
    ensures p.msgId.Some? && StartsWith(p.msgId.value, n.id + "_")
  {
    Packet(Some("MESSAGE"), None, Some(n.id + "_" + timeText), Some(n.id), Some(to), Some(text), Some(MessageTtl))
  }

  /** The datagram text for a serialised packet: the JSON followed by one newline. */
  function Frame(json: string): (r: string)
    ensures |r| == |json| + 1 && r[|json|] == '\n' && r[..|json|] == json
  {
    json + "\n"
  }

  /** The receiver's `strip()` undoes the framing of any JSON text that neither starts nor ends with whitespace. */
  lemma StripUndoesFrame(json: string)
    requires |json| > 0 && !IsSpace(json[0]) && !IsSpace(json[|json| - 1])
    ensures Strip(Frame(json)) == json
  {
    StripTrailingSpace(json, "\n");
  }

  /** A message to "ALL" that arrives fresh with a positive ttl is shown here and passed on. */
  lemma BroadcastShownAndRelayed(n: Node, p: Packet)
    requires p.msgId.Some? && p.msgId.value !in n.seen
    requires p.to == Some(Everyone) && Everyone != n.id
    requires p.from.Some? && p.text.Some? && p.ttl.Some? && p.ttl.value > 0
    ensures HandleMessage(n, p).shown == [(p.from.value, p.text.value)]
    ensures HandleMessage(n, p).broadcasts == [p.(ttl := Some(p.ttl.value - 1))]
  {
  }

  /** A node receives its own broadcasts; its own HELLO never enters the peer table. */
  lemma OwnHelloIgnored(n: Node, senderIp: string, now: int)
    ensures var hello := Packet(Some("HELLO"), Some(n.id), None, None, None, None, None);
      Receive(n, hello, senderIp, now).node == n
  {
  }

  /** One received datagram: the packet, the address it came from and the time it arrived. */
  datatype Datagram = Datagram(packet: Packet, senderIp: string, now: int)

  /** The node after receiving a run of datagrams in order. */
  function ReceiveAll(n: Node, ds: seq<Datagram>): Node
    decreases |ds|
  {
    if |ds| == 0 then n else ReceiveAll(Receive(n, ds[0].packet, ds[0].senderIp, ds[0].now).node, ds[1..])
  }

  /**
   * HELLOs never touch the seen set: after a message is handled, any number
   * of HELLOs in between leave its id recorded, so a second copy is
   * neither shown nor re-broadcast and changes nothing.
   */
  lemma {:induction false} HellosKeepSeen(n: Node, ds: seq<Datagram>)
    requires forall i :: 0 <= i < |ds| ==> ds[i].packet.kind == Some("HELLO")
    ensures ReceiveAll(n, ds).seen == n.seen
    decreases |ds|
  {
    if |ds| > 0 {
      var n1 := Receive(n, ds[0].packet, ds[0].senderIp, ds[0].now).node;
      assert n1.seen == n.seen;
      assert forall i :: 0 <= i < |ds[1..]| ==> ds[1..][i] == ds[i + 1];
      HellosKeepSeen(n1, ds[1..]);
    }
  }

  /** A copy of a message that arrives again after HELLOs from anyone is ignored. */
  lemma DuplicateAfterHellosIgnored(n: Node, m: Packet, ip: string, now: int, ds: seq<Datagram>)
    requires m.kind == Some("MESSAGE") && m.msgId.Some?
    requires forall i :: 0 <= i < |ds| ==> ds[i].packet.kind == Some("HELLO")
    ensures var n2 := ReceiveAll(Receive(n, m, ip, now).node, ds);
      m.msgId.value in n2.seen && Receive(n2, m, ip, now) == Step(n2, [], [])
  {
    HellosKeepSeen(Receive(n, m, ip, now).node, ds);
  }
}

=== FILE: routed_node.dfy ===
/**
 * The routed mesh node of the desktop simulation (MeshNode in
 * src/mesh/mesh_node.py): neighbours learnt from HELLOs, a routing table of
 * next hops, a set of delivered message ids and an inbox.  DATA packets are
 * delivered when addressed to the node, and otherwise forwarded with a
 * smaller TTL, to the next hop when one is known and by flooding otherwise.
 *
 * A step takes the node and one incoming packet (with the UDP address it
 * came from) to the new node and the datagrams it sends, in order.
 */
module RoutedNode {
  import opened Wrappers
  import opened Text
  import opened OrdMaps

  /** TTL of a message when `send_message` is not given one. */
  const DefaultTtl := 7

  datatype Addr = Addr(ip: string, port: int)

  /** A packet as its JSON object: every key may be missing; timestamps are not modelled. */
  datatype Packet = Packet(
    kind: Option<string>,
    nodeId: Option<string>,
    port: Option<int>,
    msgId: Option<string>,
    source: Option<string>,
    dest: Option<string>,
    ttl: Option<int>,
    payload: Option<string>,
    prevHop: Option<string>)

  datatype Send = Send(packet: Packet, to: Addr)

  /** One inbox entry: who sent it, its message id, and its payload. */
  datatype Delivery = Delivery(from: Option<string>, id: string, payload: Option<string>)

  datatype Node = Node(
    id: string,
    port: int,
    neighbors: OrdMap<string, Addr>,
    routes: map<string, string>,
    seqNum: nat,
    delivered: set<string>,
    inbox: seq<Delivery>)

  datatype Step = Step(node: Node, sends: seq<Send>)

  function NewNode(id: string, port: int): (n: Node)
    ensures n.neighbors.keys == [] && n.routes == map[] && n.delivered == {} && n.inbox == [] && n.seqNum == 0
  {
    Node(id, port, Empty(), map[], 0, {}, [])
  }

  function HelloPacket(n: Node): (p: Packet)
    ensures p.kind == Some("HELLO") && p.nodeId == Some(n.id) && p.port == Some(n.port)
  {
    Packet(Some("HELLO"), Some(n.id), Some(n.port), None, None, None, None, None, None)
  }

  function AckPacket(self: string, dest: string, msgId: string): (p: Packet)
    ensures p.kind == Some("ACK") && p.msgId == Some(msgId) && p.source == Some(self) && p.dest == Some(dest)
  {
    Packet(Some("ACK"), None, None, Some(msgId), Some(self), Some(dest), None, None, None)
  }

  /** The address of the next hop toward `dest`, when the routing table names a truthy next hop that is a current neighbour. */
  function RouteVia(n: Node, dest: Option<string>): (r: Option<Addr>)
    ensures r.Some? <==> dest.Some? && dest.value in n.routes && n.routes[dest.value] != "" && n.routes[dest.value] in n.neighbors.entries
    ensures r.Some? ==> r.value == n.neighbors.entries[n.routes[dest.value]]
  {
    if dest.Some? && dest.value in n.routes && n.routes[dest.value] != "" && n.routes[dest.value] in n.neighbors.entries then
      Some(n.neighbors.entries[n.routes[dest.value]])
    else
      None
  }

  /**
   * One copy of `p` to each neighbour, in table order, skipping the
   * neighbour whose id equals `exclude`.
   */
  function FloodExcept(items: seq<(string, Addr)>, p: Packet, exclude: Option<string>): (r: seq<Send>)
    ensures |r| <= |items|
    ensures forall i :: 0 <= i < |r| ==> r[i].packet == p
    ensures forall i :: 0 <= i < |items| && Some(items[i].0) != exclude ==> Send(p, items[i].1) in r
    ensures forall s :: s in r ==> exists i :: 0 <= i < |items| && Some(items[i].0) != exclude && items[i].1 == s.to
  {
    if |items| == 0 then []
    else
      var rest := FloodExcept(items[1..], p, exclude);
      assert forall s :: s in rest ==> exists i :: 0 <= i < |items| && Some(items[i].0) != exclude && items[i].1 == s.to by {
        forall s | s in rest
          ensures exists i :: 0 <= i < |items| && Some(items[i].0) != exclude && items[i].1 == s.to
        {
          var j :| 0 <= j < |items[1..]| && Some(items[1..][j].0) != exclude && items[1..][j].1 == s.to;
          assert items[j + 1] == items[1..][j];
        }
      }
      if Some(items[0].0) != exclude then [Send(p, items[0].1)] + rest else rest
  }

  /** Every neighbour gets a copy, in table order. */
  function FloodAll(n: Node, p: Packet): (r: seq<Send>)
    ensures |r| == |n.neighbors.keys|
    ensures forall i :: 0 <= i < |r| ==> r[i] == Send(p, n.neighbors.entries[n.neighbors.keys[i]])
  {
    seq(|n.neighbors.keys|, i requires 0 <= i < |n.neighbors.keys| => Send(p, n.neighbors.entries[n.neighbors.keys[i]]))
  }

  /**
   * `_forward`: to the next hop alone when the route is usable, otherwise a
   * flood to every neighbour except the one named `exclude`.
   */
  function ForwardExcept(n: Node, p: Packet, exclude: Option<string>): (r: seq<Send>)
    ensures RouteVia(n, p.dest).Some? ==> r == [Send(p, RouteVia(n, p.dest).value)]
    ensures RouteVia(n, p.dest).None? ==>
      && (forall i :: 0 <= i < |r| ==> r[i].packet == p)
      && (forall k :: k in n.neighbors.entries && Some(k) != exclude ==> Send(p, n.neighbors.entries[k]) in r)
      && (forall s :: s in r ==> exists k :: k in n.neighbors.entries && Some(k) != exclude && n.neighbors.entries[k] == s.to)
  {
    match RouteVia(n, p.dest)
    case Some(a) => [Send(p, a)]
    case None =>
      var items := Items(n.neighbors);
      var r := FloodExcept(items, p, exclude);
      assert forall k :: k in n.neighbors.entries ==> k in n.neighbors.keys;
      assert forall k :: k in n.neighbors.entries && Some(k) != exclude ==> Send(p, n.neighbors.entries[k]) in r by {
        forall k | k in n.neighbors.entries && Some(k) != exclude
          ensures Send(p, n.neighbors.entries[k]) in r
        {
          var i :| 0 <= i < |n.neighbors.keys| && n.neighbors.keys[i] == k;
          assert items[i] == (k, n.neighbors.entries[k]);
        }
      }
      assert forall s :: s in r ==> exists k :: k in n.neighbors.entries && Some(k) != exclude && n.neighbors.entries[k] == s.to by {
        forall s | s in r
          ensures exists k :: k in n.neighbors.entries && Some(k) != exclude && n.neighbors.entries[k] == s.to
        {
          var i :| 0 <= i < |items| && Some(items[i].0) != exclude && items[i].1 == s.to;
          assert n.neighbors.keys[i] in n.neighbors.entries;
        }
      }
      r
  }

  /**
   * `_send_ack`: nothing when there is no destination; otherwise one ACK to
   * the next hop when the route is usable, else to the destination itself
   * when it is a neighbour, else a copy to every neighbour.
   */
  function AckSends(n: Node, dest: Option<string>, msgId: string): (r: seq<Send>)
    ensures !Truthy(dest) ==> r == []
    ensures Truthy(dest) ==> forall i :: 0 <= i < |r| ==> r[i].packet == AckPacket(n.id, dest.value, msgId)
    ensures Truthy(dest) && RouteVia(n, dest).Some? ==> |r| == 1 && r[0].to == RouteVia(n, dest).value
    ensures Truthy(dest) && RouteVia(n, dest).None? && dest.value in n.neighbors.entries ==>
      |r| == 1 && r[0].to == n.neighbors.entries[dest.value]
    ensures Truthy(dest) && RouteVia(n, dest).None? && dest.value !in n.neighbors.entries ==>
      |r| == |n.neighbors.keys| && forall i :: 0 <= i < |r| ==> r[i].to == n.neighbors.entries[n.neighbors.keys[i]]
  {
    if !Truthy(dest) then []
    else
      var ack := AckPacket(n.id, dest.value, msgId);
      match RouteVia(n, dest)
      case Some(a) => [Send(ack, a)]
      case None =>
        if dest.value in n.neighbors.entries then [Send(ack, n.neighbors.entries[dest.value])]
        else FloodAll(n, ack)
  }

  /**
   * `_handle_hello`: a HELLO without a truthy node id changes nothing and
   * sends nothing; otherwise the sender becomes a neighbour at the address
   * the datagram came from, a direct route to it is learnt, and one HELLO
   * goes back to that address.
   */
  function HandleHello(n: Node, p: Packet, from: Addr): (r: Step)
    ensures !Truthy(p.nodeId) ==> r == Step(n, [])
    ensures Truthy(p.nodeId) ==>
      && r.node.neighbors.entries == n.neighbors.entries[p.nodeId.value := from]
      && (p.nodeId.value in n.neighbors.entries ==> r.node.neighbors.keys == n.neighbors.keys)
      && (p.nodeId.value !in n.neighbors.entries ==> r.node.neighbors.keys == n.neighbors.keys + [p.nodeId.value])
      && r.node.routes == n.routes[p.nodeId.value := p.nodeId.value]
      && r.node.delivered == n.delivered && r.node.inbox == n.inbox && r.node.seqNum == n.seqNum
      && r.node.id == n.id && r.node.port == n.port
      && r.sends == [Send(HelloPacket(n), from)]
  {
    if !Truthy(p.nodeId) then Step(n, [])
    else
      var k := p.nodeId.value;
      Step(n.(neighbors := Put(n.neighbors, k, from), routes := n.routes[k := k]), [Send(HelloPacket(n), from)])
  }

  /** The copy a node forwards: one less TTL, and itself as the previous hop. */
  function Relayed(n: Node, p: Packet): (q: Packet)
    ensures q.ttl == Some(p.ttl.GetOr(0) - 1) && q.prevHop == Some(n.id)
    ensures q.msgId == p.msgId && q.source == p.source && q.dest == p.dest && q.payload == p.payload && q.kind == p.kind
  {
    p.(ttl := Some(p.ttl.GetOr(0) - 1), prevHop := Some(n.id))
  }

  /** The routing table after a DATA packet: a reverse route to the source via the previous hop, when both are truthy. */
  function LearnRoute(routes: map<string, string>, p: Packet): (r: map<string, string>)
    ensures Truthy(p.prevHop) && Truthy(p.source) ==> r == routes[p.source.value := p.prevHop.value]
    ensures !(Truthy(p.prevHop) && Truthy(p.source)) ==> r == routes
  {
    if Truthy(p.prevHop) && Truthy(p.source) then routes[p.source.value := p.prevHop.value] else routes
  }

  /**
   * Which neighbour a flood skips.  As written, `_handle_data` overwrites
   * `prev_hop` with the node's own id before `_forward` reads it, so the
   * flood skips a neighbour named like the node itself; the intended
   * behaviour skips the neighbour the packet came from.
   */
  function FloodSkips(n: Node, p: Packet, excludeSender: bool): Option<string>
  {
    if excludeSender then p.prevHop else Relayed(n, p).prevHop
  }

  /**
   * `_handle_data`, with the flood skipping `FloodSkips(n, p, excludeSender)`.
   * A packet without a truthy id, or with an id already delivered, changes
   * nothing and sends nothing.  Otherwise the id is recorded and a reverse
   * route may be learnt; a packet for this node is appended to the inbox
   * once and answered by ACKs only; any other packet is dropped when its
   * TTL (missing counts as 0) is not positive, and otherwise forwarded with
   * one less TTL and this node as its previous hop.
   */
  function HandleDataWith(n: Node, p: Packet, excludeSender: bool): (r: Step)
    ensures !Truthy(p.msgId) || p.msgId.value in n.delivered ==> r == Step(n, [])
    ensures Truthy(p.msgId) && p.msgId.value !in n.delivered ==>
      && r.node.delivered == n.delivered + {p.msgId.value}
      && r.node.routes == LearnRoute(n.routes, p)
      && r.node.neighbors == n.neighbors && r.node.seqNum == n.seqNum
      && r.node.id == n.id && r.node.port == n.port
    ensures Truthy(p.msgId) && p.msgId.value !in n.delivered && p.dest == Some(n.id) ==>
      && r.node.inbox == n.inbox + [Delivery(p.source, p.msgId.value, p.payload)]
      && (forall i :: 0 <= i < |r.sends| ==> r.sends[i].packet.kind == Some("ACK") && r.sends[i].packet.dest == p.source)
      && (!Truthy(p.source) ==> r.sends == [])
      && r.sends == AckSends(r.node, p.source, p.msgId.value)
    ensures Truthy(p.msgId) && p.msgId.value !in n.delivered && p.dest != Some(n.id) ==>
      && r.node.inbox == n.inbox
      && (p.ttl.GetOr(0) <= 0 ==> r.sends == [])
      && (p.ttl.GetOr(0) > 0 ==> r.sends == ForwardExcept(r.node, Relayed(n, p), FloodSkips(n, p, excludeSender)))
  {
    if !Truthy(p.msgId) || p.msgId.value in n.delivered then Step(n, [])
    else
      var id := p.msgId.value;
      var n1 := n.(delivered := n.delivered + {id}, routes := LearnRoute(n.routes, p));
      if p.dest == Some(n.id) then
        var n2 := n1.(inbox := n1.inbox + [Delivery(p.source, id, p.payload)]);
        Step(n2, AckSends(n2, p.source, id))
      else if p.ttl.GetOr(0) <= 0 then Step(n1, [])
      else
        var q := Relayed(n, p);
        Step(n1, ForwardExcept(n1, q, FloodSkips(n, p, excludeSender)))
  }

  /** A fresh DATA packet for another node, with TTL left and no usable route onward: the case that floods. */
  predicate Floods(n: Node, p: Packet)
  {
    && Truthy(p.msgId) && p.msgId.value !in n.delivered
    && p.dest != Some(n.id) && p.ttl.GetOr(0) > 0
    && RouteVia(n.(routes := LearnRoute(n.routes, p)), p.dest).None?
  }

  /**
   * `_handle_data` as written: when it floods, every neighbour not named
   * like this node gets the relayed copy, the neighbour the packet came
   * from included.
   */
  function HandleDataAsWritten(n: Node, p: Packet): (r: Step)
    ensures Floods(n, p) ==> forall k :: k in n.neighbors.entries && k != n.id ==> Send(Relayed(n, p), n.neighbors.entries[k]) in r.sends
  {
    HandleDataWith(n, p, false)
  }

  /**
   * `_handle_data` as its comment intends: when it floods, the relayed copy
   * goes to every neighbour except the one named by the incoming `prev_hop`,
   * and only to them.
   */
  function HandleData(n: Node, p: Packet): (r: Step)
    ensures Floods(n, p) ==>
      && (forall k :: k in n.neighbors.entries && Some(k) != p.prevHop ==> Send(Relayed(n, p), n.neighbors.entries[k]) in r.sends)
      && (forall s :: s in r.sends ==> exists k :: k in n.neighbors.entries && Some(k) != p.prevHop && n.neighbors.entries[k] == s.to)
  {
    HandleDataWith(n, p, true)
  }

  /**
   * `_handle_packet`: HELLO and DATA are handled, DATA by `_handle_data` as
   * written; ACK and every other type change nothing.
   */
  function HandlePacket(n: Node, p: Packet, from: Addr): (r: Step)
    ensures p.kind == Some("HELLO") ==> r == HandleHello(n, p, from)
    ensures p.kind == Some("DATA") ==> r == HandleDataAsWritten(n, p)
    ensures p.kind != Some("HELLO") && p.kind != Some("DATA") ==> r == Step(n, [])
  {
    if p.kind == Some("HELLO") then HandleHello(n, p, from)
    else if p.kind == Some("DATA") then HandleDataAsWritten(n, p)
    else Step(n, [])
  }

  /** `_handle_packet` with the corrected flood: the same dispatch, DATA going to `HandleData`. */
  function HandlePacketIntended(n: Node, p: Packet, from: Addr): (r: Step)
    ensures p.kind == Some("HELLO") ==> r == HandleHello(n, p, from)
    ensures p.kind == Some("DATA") ==> r == HandleData(n, p)
    ensures p.kind != Some("HELLO") && p.kind != Some("DATA") ==> r == Step(n, [])
  {
    if p.kind == Some("HELLO") then HandleHello(n, p, from)
    else if p.kind == Some("DATA") then HandleData(n, p)
    else Step(n, [])
  }

  /** The two dispatchers differ only where a DATA packet floods. */
  lemma DispatchersAgreeUnlessFlooding(n: Node, p: Packet, from: Addr)
    requires !(p.kind == Some("DATA") && Floods(n, p))
    ensures HandlePacket(n, p, from) == HandlePacketIntended(n, p, from)
  {
  }

  /** The id of the node's `seq`-th message: its id, the sequence number and a random suffix, separated by colons. */
  function MessageId(id: string, num: nat, nonce: string): string
  {
    id + ":" + ShowNat(num) + ":" + nonce
  }

  /**
   * `send_message`: the sequence number goes up by one and names the new
   * message; the DATA packet (TTL 7 unless given) goes to the next hop when
   * the route is usable and to every neighbour otherwise.  The node does
   * not record its own message as delivered.
   */
  function SendMessage(n: Node, dest: string, payload: string, nonce: string, ttl: Option<int>): (r: Step)
    ensures r.node == n.(seqNum := n.seqNum + 1)
    ensures forall i :: 0 <= i < |r.sends| ==>
      var p := r.sends[i].packet;
      && p.kind == Some("DATA") && p.msgId == Some(MessageId(n.id, n.seqNum + 1, nonce))
      && p.source == Some(n.id) && p.dest == Some(dest) && p.payload == Some(payload)
      && p.ttl == Some(ttl.GetOr(DefaultTtl)) && p.prevHop == None
    ensures RouteVia(n, Some(dest)).Some? ==> |r.sends| == 1 && r.sends[0].to == RouteVia(n, Some(dest)).value
    ensures RouteVia(n, Some(dest)).None? ==>
      |r.sends| == |n.neighbors.keys| && forall i :: 0 <= i < |r.sends| ==> r.sends[i].to == n.neighbors.entries[n.neighbors.keys[i]]
  {
    var num := n.seqNum + 1;
    var p := Packet(Some("DATA"), None, None, Some(MessageId(n.id, num, nonce)), Some(n.id), Some(dest),
                    Some(ttl.GetOr(DefaultTtl)), Some(payload), None);
    var sends := match RouteVia(n, Some(dest)) case Some(a) => [Send(p, a)] case None => FloodAll(n, p);
    Step(n.(seqNum := num), sends)
  }

  /** `connect_to_peer`: a HELLO to the given address, and nothing else. */
  function ConnectToPeer(n: Node, ip: string, port: int): (r: Step)
    ensures r.node == n && r.sends == [Send(HelloPacket(n), Addr(ip, port))]
  {
    Step(n, [Send(HelloPacket(n), Addr(ip, port))])
  }

  /** `add_static_neighbor`: the neighbour and a direct route to it, with nothing sent. */
  function AddStaticNeighbor(n: Node, k: string, ip: string, port: int): (r: Node)
    ensures r.neighbors.entries == n.neighbors.entries[k := Addr(ip, port)]
    ensures k in n.neighbors.entries ==> r.neighbors.keys == n.neighbors.keys
    ensures k !in n.neighbors.entries ==> r.neighbors.keys == n.neighbors.keys + [k]
    ensures r.routes == n.routes[k := k]
    ensures r.delivered == n.delivered && r.inbox == n.inbox && r.seqNum == n.seqNum && r.id == n.id
    ensures r.port == n.port
  {
    n.(neighbors := Put(n.neighbors, k, Addr(ip, port)), routes := n.routes[k := k])
  }

  /** A static neighbour is reachable at once: a message to it is one datagram to the address it was added with. */
  lemma StaticNeighborIsUnicast(n: Node, k: string, ip: string, port: int, payload: string, nonce: string, ttl: Option<int>)
    requires k != ""
    ensures var r := SendMessage(AddStaticNeighbor(n, k, ip, port), k, payload, nonce, ttl);
      |r.sends| == 1 && r.sends[0].to == Addr(ip, port)
  {
  }

  /** A second copy of a DATA packet changes nothing and sends nothing, whichever flood rule applies. */
  lemma SecondCopyIgnored(n: Node, p: Packet, excludeSender: bool)
    ensures var n1 := HandleDataWith(n, p, excludeSender).node;
      HandleDataWith(n1, p, excludeSender) == Step(n1, [])
  {
  }

  /** Once a neighbour has said HELLO, a message to it is sent to the address the HELLO came from, and nowhere else. */
  lemma HelloEnablesUnicast(n: Node, p: Packet, from: Addr, payload: string, nonce: string, ttl: Option<int>)
    requires Truthy(p.nodeId)
    ensures var n1 := HandleHello(n, p, from).node;
      var r := SendMessage(n1, p.nodeId.value, payload, nonce, ttl);
      |r.sends| == 1 && r.sends[0].to == from
  {
  }

  /** Message ids with different sequence numbers differ, whatever the random suffixes. */
  lemma {:induction false} MessageIdsDiffer(id: string, m: nat, k: nat, nonce1: string, nonce2: string)
    requires m != k
    ensures MessageId(id, m, nonce1) != MessageId(id, k, nonce2)
  {
    if MessageId(id, m, nonce1) == MessageId(id, k, nonce2) {
      var a, b := MessageId(id, m, nonce1), MessageId(id, k, nonce2);
      var pre := |id| + 1;
      assert a[pre..] == ShowNat(m) + [':'] + nonce1;
      assert b[pre..] == ShowNat(k) + [':'] + nonce2;
      assert ':' !in ShowNat(m) && ':' !in ShowNat(k);
      SameFieldBeforeSeparator(ShowNat(m), nonce1, ShowNat(k), nonce2, ':');
      ShowNatInjective(m, k);
    }
  }

  /** Two messages sent one after the other carry different ids. */
  lemma SuccessiveMessagesDiffer(n: Node, d1: string, t1: string, x1: string, d2: string, t2: string, x2: string,
                                 ttl1: Option<int>, ttl2: Option<int>)
    ensures var r1 := SendMessage(n, d1, t1, x1, ttl1);
      var r2 := SendMessage(r1.node, d2, t2, x2, ttl2);
      forall i, j :: 0 <= i < |r1.sends| && 0 <= j < |r2.sends| ==> r1.sends[i].packet.msgId != r2.sends[j].packet.msgId
  {
    MessageIdsDiffer(n.id, n.seqNum + 1, n.seqNum + 2, x1, x2);
  }

  /**
   * As written, a flooded packet goes back to the neighbour it came from:
   * with no usable route to the destination, the neighbour named by the
   * incoming `prev_hop` gets a copy, because `prev_hop` was overwritten
   * with the node's own id before the flood read it.
   */
  lemma FloodReturnsToSender(n: Node, p: Packet, k: string)
    requires Truthy(p.msgId) && p.msgId.value !in n.delivered
    requires p.dest.Some? && p.dest != Some(n.id) && p.dest.value !in n.routes && p.dest != p.source
    requires p.ttl.GetOr(0) > 0
    requires p.prevHop == Some(k) && k in n.neighbors.entries && k != n.id
    ensures Send(Relayed(n, p), n.neighbors.entries[k]) in HandleDataAsWritten(n, p).sends
  {
    var n1 := n.(delivered := n.delivered + {p.msgId.value}, routes := LearnRoute(n.routes, p));
    assert RouteVia(n1, p.dest).None?;
  }

  /** The smallest case: B, with neighbours A and C and no route to D, floods A's packet for D back to A. */
  lemma FloodReturnsToSenderExample()
    ensures var a, c := Addr("127.0.0.1", 5101), Addr("127.0.0.1", 5103);
      var b := NewNode("B", 5102).(neighbors := Put(Put(Empty(), "A", a), "C", c));
      var p := Packet(Some("DATA"), None, None, Some("A:1:x"), Some("A"), Some("D"), Some(3), Some("hi"), Some("A"));
      HandleDataAsWritten(b, p).sends == [Send(Relayed(b, p), a), Send(Relayed(b, p), c)]
  {
    var a, c := Addr("127.0.0.1", 5101), Addr("127.0.0.1", 5103);
    var nb := Put(Put(Empty(), "A", a), "C", c);
    var b := NewNode("B", 5102).(neighbors := nb);
    var p := Packet(Some("DATA"), None, None, Some("A:1:x"), Some("A"), Some("D"), Some(3), Some("hi"), Some("A"));
    ExampleFloods(b, p);
    FloodSends(b, p, false);
    ExampleTable(a, c);
    ExampleFlood(a, c, Relayed(b, p));
  }

  /** The example's neighbour table lists A and then C. */
  lemma ExampleTable(a: Addr, c: Addr)
    ensures Items(Put(Put(Empty(), "A", a), "C", c)) == [("A", a), ("C", c)]
  {
    assert Put(Put(Empty(), "A", a), "C", c).keys == ["A", "C"];
  }

  /** Flooding over A and C while skipping "B" reaches both. */
  lemma ExampleFlood(a: Addr, c: Addr, q: Packet)
    ensures FloodExcept([("A", a), ("C", c)], q, Some("B")) == [Send(q, a), Send(q, c)]
  {
    var items := [("A", a), ("C", c)];
    assert items[1..][1..] == [];
    assert FloodExcept(items[1..], q, Some("B")) == [Send(q, c)];
  }

  /** The example's packet is fresh, for another node, with TTL left and no route onward. */
  lemma ExampleFloods(b: Node, p: Packet)
    requires b.id == "B" && b.delivered == {} && b.routes == map[] && "D" !in b.neighbors.entries
    requires p == Packet(Some("DATA"), None, None, Some("A:1:x"), Some("A"), Some("D"), Some(3), Some("hi"), Some("A"))
    ensures Floods(b, p)
  {
    assert LearnRoute(b.routes, p) == map["A" := "A"];
  }

  /** When a packet floods, the sends are the relayed copy flooded over the neighbour table, skipping the neighbour the rule names. */
  lemma FloodSends(n: Node, p: Packet, excludeSender: bool)
    requires Floods(n, p)
    ensures HandleDataWith(n, p, excludeSender).sends == FloodExcept(Items(n.neighbors), Relayed(n, p), FloodSkips(n, p, excludeSender))
  {
  }

  /**
   * With the flood skipping the neighbour the packet came from, and
   * neighbours at distinct addresses, no flooded copy goes back to the
   * sender's address.
   */
  lemma FloodSkipsSender(n: Node, p: Packet, k: string)
    requires Truthy(p.msgId) && p.msgId.value !in n.delivered
    requires p.dest.Some? && p.dest != Some(n.id) && p.dest.value !in n.routes && p.dest != p.source
    requires p.ttl.GetOr(0) > 0
    requires p.prevHop == Some(k) && k in n.neighbors.entries
    requires forall j :: j in n.neighbors.entries && j != k ==> n.neighbors.entries[j] != n.neighbors.entries[k]
    ensures forall s :: s in HandleData(n, p).sends ==> s.to != n.neighbors.entries[k]
  {
    var n1 := n.(delivered := n.delivered + {p.msgId.value}, routes := LearnRoute(n.routes, p));
    assert RouteVia(n1, p.dest).None?;
    assert Floods(n, p);
  }

  /**
   * The three-node chain of the simulation test: A, B and C on the loopback
   * address at ports 5101, 5102 and 5103; A and C each say HELLO to B, and B
   * answers.  A message from A to C is flooded to B (A has no route to C),
   * B sends it on to C alone (its direct route), and C puts it in its inbox,
   * attributed to A and with its payload intact.
   */
  lemma ChainDelivers(payload: string, nonce: string)
    ensures var ip := "127.0.0.1";
      var a0, b0, c0 := NewNode("A", 5101), NewNode("B", 5102), NewNode("C", 5103);
      var b1 := HandlePacket(b0, HelloPacket(a0), Addr(ip, 5101)).node;
      var a1 := HandlePacket(a0, HelloPacket(b1), Addr(ip, 5102)).node;
      var b2 := HandlePacket(b1, HelloPacket(c0), Addr(ip, 5103)).node;
      var c1 := HandlePacket(c0, HelloPacket(b2), Addr(ip, 5102)).node;
      var sent := SendMessage(a1, "C", payload, nonce, None);
      && |sent.sends| == 1 && sent.sends[0].to == Addr(ip, 5102)
      && var relayed := HandlePacket(b2, sent.sends[0].packet, Addr(ip, 5101));
      && |relayed.sends| == 1 && relayed.sends[0].to == Addr(ip, 5103)
      && var c2 := HandlePacket(c1, relayed.sends[0].packet, Addr(ip, 5102)).node;
      && c2.inbox == [Delivery(Some("A"), MessageId("A", 1, nonce), Some(payload))]
  {
    var ip := "127.0.0.1";
    var a, b, c := Addr(ip, 5101), Addr(ip, 5102), Addr(ip, 5103);
    var a0, b0, c0 := NewNode("A", 5101), NewNode("B", 5102), NewNode("C", 5103);
    var b1 := HandlePacket(b0, HelloPacket(a0), a).node;
    var a1 := HandlePacket(a0, HelloPacket(b1), b).node;
    var b2 := HandlePacket(b1, HelloPacket(c0), c).node;
    var c1 := HandlePacket(c0, HelloPacket(b2), b).node;
    ChainWiring();
    SendToOnlyNeighbor(a1, "B", "C", payload, nonce, None);
    var sent := SendMessage(a1, "C", payload, nonce, None);
    var p := sent.sends[0].packet;
    assert p.source == Some("A") && p.msgId == Some(MessageId("A", 1, nonce)) && p.prevHop == None;
    assert LearnRoute(b2.routes, p) == b2.routes;
    RelayStep(b2, p, a, c);
    var q := Relayed(b2, p);
    DeliverStep(c1, q, b);
  }

  /**
   * What the four HELLOs of the chain leave behind: A knows only B, so it
   * has no route to C; B reaches C directly;
   * C has delivered nothing yet.
   */
  lemma ChainWiring()
    ensures var ip := "127.0.0.1";
      var a, b, c := Addr(ip, 5101), Addr(ip, 5102), Addr(ip, 5103);
      var a0, b0, c0 := NewNode("A", 5101), NewNode("B", 5102), NewNode("C", 5103);
      var b1 := HandlePacket(b0, HelloPacket(a0), a).node;
      var a1 := HandlePacket(a0, HelloPacket(b1), b).node;
      var b2 := HandlePacket(b1, HelloPacket(c0), c).node;
      var c1 := HandlePacket(c0, HelloPacket(b2), b).node;
      && a1.id == "A" && a1.seqNum == 0 && RouteVia(a1, Some("C")).None?
      && a1.neighbors.keys == ["B"] && a1.neighbors.entries["B"] == b
      && b2.id == "B" && b2.delivered == {}
      && RouteVia(b2, Some("C")) == Some(c)
      && c1.id == "C" && c1.delivered == {} && c1.inbox == []
  {
    var ip := "127.0.0.1";
    var a, b, c := Addr(ip, 5101), Addr(ip, 5102), Addr(ip, 5103);
    var a0, b0, c0 := NewNode("A", 5101), NewNode("B", 5102), NewNode("C", 5103);
    HelloStep(b0, a0, a);
    var b1 := HandlePacket(b0, HelloPacket(a0), a).node;
    HelloStep(a0, b1, b);
    HelloStep(b1, c0, c);
    var b2 := HandlePacket(b1, HelloPacket(c0), c).node;
    HelloStep(c0, b2, b);
    assert b2.routes == map["A" := "A", "C" := "C"] && b2.neighbors.entries["C"] == c;
  }

  /** With no route and a single neighbour, a message is one packet to that neighbour. */
  lemma SendToOnlyNeighbor(n: Node, k: string, dest: string, payload: string, nonce: string, ttl: Option<int>)
    requires RouteVia(n, Some(dest)).None? && n.neighbors.keys == [k] && k in n.neighbors.entries
    ensures var r := SendMessage(n, dest, payload, nonce, ttl);
      |r.sends| == 1 && r.sends[0].to == n.neighbors.entries[k]
  {
  }

  /** A HELLO from a node with a non-empty id adds it as a neighbour at the sending address, with a direct route. */
  lemma HelloStep(n: Node, m: Node, from: Addr)
    requires m.id != ""
    ensures HandlePacket(n, HelloPacket(m), from).node == n.(neighbors := Put(n.neighbors, m.id, from), routes := n.routes[m.id := m.id])
  {
  }

  /** A fresh DATA packet for another node, with TTL left and a usable route, goes to that next hop alone. */
  lemma RelayStep(n: Node, p: Packet, from: Addr, hop: Addr)
    requires p.kind == Some("DATA") && Truthy(p.msgId) && p.msgId.value !in n.delivered
    requires p.dest != Some(n.id) && p.ttl.GetOr(0) > 0
    requires RouteVia(n.(routes := LearnRoute(n.routes, p)), p.dest) == Some(hop)
    ensures HandlePacket(n, p, from).sends == [Send(Relayed(n, p), hop)]
  {
  }

  /**
   * A fresh DATA packet for this node, from a source that is a neighbour,
   * is acknowledged by exactly one ACK: to the next hop when the route is
   * usable, otherwise straight to the source.
   */
  lemma DeliveryAcknowledged(n: Node, p: Packet)
    requires Truthy(p.msgId) && p.msgId.value !in n.delivered && p.dest == Some(n.id)
    requires Truthy(p.source) && p.source.value in n.neighbors.entries
    ensures var r := HandleDataAsWritten(n, p);
      && |r.sends| == 1
      && r.sends[0].packet == AckPacket(n.id, p.source.value, p.msgId.value)
      && r.sends[0].to == (match RouteVia(r.node, p.source) case Some(a) => a case None => n.neighbors.entries[p.source.value])
  {
  }

  /** A fresh DATA packet for this node lands in its inbox, once. */
  lemma DeliverStep(n: Node, p: Packet, from: Addr)
    requires p.kind == Some("DATA") && Truthy(p.msgId) && p.msgId.value !in n.delivered && p.dest == Some(n.id)
    ensures HandlePacket(n, p, from).node.inbox == n.inbox + [Delivery(p.source, p.msgId.value, p.payload)]
  {
  }
}

=== FILE: seen_cache.dfy ===
/**
 * The duplicate-suppression set of the broadcast chat nodes
 * (mesh_chat.py, mesh_chat_termux.py, web_mesh_chat.py): every new message
 * id is added, and once the set holds more than 1000 ids it is replaced by
 * `set(list(seen)[-500:])`, the last 500 ids of the set's iteration order.
 * Python leaves that order unspecified, so it is a parameter here: any
 * duplicate-free listing of the grown set.
 */
module SeenCache {
  import opened OrdMaps

  const MaxSeen := 1000
  const KeepSeen := 500

  /** `order` lists every element of `s` exactly once: what `list(s)` yields. */
  ghost predicate Enumerates<T>(order: seq<T>, s: set<T>)
  {
    Distinct(order) && (set x | x in order) == s
  }

  /** The listing `Record` needs: one of the grown set, whenever the grown set is over the cap. */
  ghost predicate OrderFits<T>(seen: set<T>, id: T, order: seq<T>)
  {
    |seen + {id}| > MaxSeen ==> Enumerates(order, seen + {id})
  }

  /**
   * `seen.add(id)` followed by the cap.  Below the cap nothing is lost; over it
   * the result is a 500-element subset of the grown set, so a set that starts
   * within the cap stays within it.
   */
  function Record<T>(seen: set<T>, id: T, order: seq<T>): (r: set<T>)
    requires OrderFits(seen, id, order)
    ensures |seen + {id}| <= MaxSeen ==> r == seen + {id}
    ensures |seen + {id}| > MaxSeen ==> r <= seen + {id} && |r| == KeepSeen
    ensures |seen| <= MaxSeen ==> |r| <= MaxSeen
  {
    var grown := seen + {id};
    if |grown| <= MaxSeen then grown
    else
      DistinctCard(order);
      var tail := order[|order| - KeepSeen..];
      DistinctCard(tail);
      set x | x in tail
  }
}

=== FILE: staleness.dfy ===
/**
 * The staleness sweep shared by the chat nodes: every 5 seconds a cleanup
 * loop drops each peer whose last HELLO is more than 15 seconds old
 * (`now - last_seen > 15`, strict).  Timestamps are whole seconds here.
 */
module Staleness {

  const StaleAfter := 15

  predicate IsStale(lastSeen: int, now: int)
  {
    now - lastSeen > StaleAfter
  }

  /** The peers a sweep at `now` evicts. */
  function StaleIds<K(!new)>(lastSeen: map<K, int>, now: int): (r: set<K>)
    ensures forall k :: k in r <==> k in lastSeen && IsStale(lastSeen[k], now)
  {
    set k | k in lastSeen && IsStale(lastSeen[k], now)
  }

  /** One sweep of a `peer -> last_seen` table: exactly the stale peers go, the others keep their timestamps. */
  function Sweep<K(!new)>(lastSeen: map<K, int>, now: int): (r: map<K, int>)
    ensures r.Keys == lastSeen.Keys - StaleIds(lastSeen, now)
    ensures forall k :: k in r ==> r[k] == lastSeen[k] && !IsStale(r[k], now)
  {
    map k | k in lastSeen && !IsStale(lastSeen[k], now) :: lastSeen[k]
  }

  /** A later sweep subsumes an earlier one: sweeping at `t1` and then at `t2 >= t1` is sweeping once at `t2`. */
  lemma SweepLater<K(!new)>(lastSeen: map<K, int>, t1: int, t2: int)
    requires t1 <= t2
    ensures Sweep(Sweep(lastSeen, t1), t2) == Sweep(lastSeen, t2)
  {
    var a := Sweep(Sweep(lastSeen, t1), t2);
    var b := Sweep(lastSeen, t2);
    assert a.Keys == b.Keys;
  }

  /** Sweeping twice at the same instant changes nothing the first sweep did not. */
  lemma SweepIdempotent<K(!new)>(lastSeen: map<K, int>, now: int)
    ensures Sweep(Sweep(lastSeen, now), now) == Sweep(lastSeen, now)
  {
    SweepLater(lastSeen, now, now);
  }

  /** A peer heard at `t` survives every sweep up to `t + 15` and is gone from any sweep after that. */
  lemma HeardPeerLifetime<K(!new)>(lastSeen: map<K, int>, k: K, t: int, now: int)
    ensures k in Sweep(lastSeen[k := t], now) <==> now <= t + StaleAfter
  {
  }
}

=== FILE: termux_chat.dfy ===
/**
 * The Termux (Android) broadcast chat node of mesh_chat_termux.py: a peer
 * table of last-seen times and a capped seen set, no routing table.  New
 * peers are announced on the console, messages for this node are shown,
 * others are re-broadcast while their ttl lasts.
 */
module TermuxChat {
  import opened Wrappers
  import opened Text
  import opened Flood
  import SeenCache
  import Staleness

  datatype Node = Node(id: string, localIp: string, peers: map<string, int>, seen: SeenIds)

  datatype Event =
    | Found(peer: string)
    | Shown(from: Option<string>, payload: Option<string>)

  datatype Step = Step(node: Node, broadcasts: seq<Packet>, events: seq<Event>)

  /**
   * HELLO: ignored when the id is missing or the node's own; otherwise the peer
   * is stamped with `now`, and it is announced exactly when it was not known.
   */
  function HandleHello(n: Node, p: Packet, now: int): (r: Step)
    ensures !Truthy(p.nodeId) || p.nodeId.value == n.id ==> r == Step(n, [], [])
    ensures Truthy(p.nodeId) && p.nodeId.value != n.id ==>
      && r.node == n.(peers := n.peers[p.nodeId.value := now])
      && r.broadcasts == []
      && (r.events == [Found(p.nodeId.value)] <==> p.nodeId.value !in n.peers)
      && (r.events == [] <==> p.nodeId.value in n.peers)
  {
    if !Truthy(p.nodeId) || p.nodeId.value == n.id then Step(n, [], [])
    else
      var id := p.nodeId.value;
      var wasNew := id !in n.peers;
      Step(n.(peers := n.peers[id := now]), [], if wasNew then [Found(id)] else [])
  }

  /**
   * MESSAGE: a duplicate changes nothing; a new id is recorded under the cap;
   * a message to this node is shown and not forwarded; any other is
   * re-broadcast iff its ttl is positive, with ttl - 1.
   */
  function HandleMessage(n: Node, p: Packet, order: seq<Option<string>>): (r: Step)
    requires CanRecord(n.seen, p, order)
    ensures p.msgId in n.seen ==> r == Step(n, [], [])
    ensures p.msgId !in n.seen ==> r.node == n.(seen := SeenCache.Record(n.seen, p.msgId, order))
    ensures p.msgId !in n.seen && p.to == Some(n.id) ==>
      r.broadcasts == [] && r.events == [Shown(p.from, p.payload)]
    ensures p.msgId !in n.seen && p.to != Some(n.id) ==>
      r.events == [] && (|r.broadcasts| == 1 <==> p.ttl.GetOr(0) > 0) && |r.broadcasts| <= 1
    ensures forall q :: q in r.broadcasts ==> Relays(p, q)
  {
    var h := Flood.HandleMessage(n.seen, p, p.to == Some(n.id), order);
    var n' := n.(seen := h.seen);
    match h.outcome
    case Duplicate => Step(n, [], [])
    case Deliver(from, payload) => Step(n', [], [Shown(from, payload)])
    case Rebroadcast(q) => Step(n', [q], [])
    case Expired => Step(n', [], [])
  }

  /** The receive loop and `_handle_packet`: own broadcasts and unknown types are skipped. */
  function Receive(n: Node, senderIp: string, p: Packet, now: int, order: seq<Option<string>>): (r: Step)
    requires CanRecord(n.seen, p, order)
    ensures senderIp == n.localIp ==> r == Step(n, [], [])
    ensures p.kind != Some("HELLO") && p.kind != Some("MESSAGE") ==> r == Step(n, [], [])
    ensures senderIp != n.localIp && p.kind == Some("HELLO") ==> r == HandleHello(n, p, now)
    ensures senderIp != n.localIp && p.kind == Some("MESSAGE") ==> r == HandleMessage(n, p, order)
  {
    if senderIp == n.localIp then Step(n, [], [])
    else if p.kind == Some("HELLO") then HandleHello(n, p, now)
    else if p.kind == Some("MESSAGE") then HandleMessage(n, p, order)
    else Step(n, [], [])
  }

  datatype Swept = Swept(node: Node, lost: set<string>)

  /** One cleanup pass: exactly the peers stale for more than 15 seconds are dropped and reported lost. */
  function Sweep(n: Node, now: int): (r: Swept)
    ensures r.lost == Staleness.StaleIds(n.peers, now)
    ensures r.node.peers.Keys == n.peers.Keys - r.lost
    ensures forall k :: k in r.node.peers ==> r.node.peers[k] == n.peers[k]
    ensures r.node.seen == n.seen && r.node.id == n.id && r.node.localIp == n.localIp
  {
    Swept(n.(peers := Staleness.Sweep(n.peers, now)), Staleness.StaleIds(n.peers, now))
  }

  /** `send_message`: the broadcast MESSAGE, ttl 10, id prefixed by `node_id:`. */
  function SendMessage(n: Node, dest: string, text: string, millis: nat, nonce: string): (p: Packet)
    ensures p.kind == Some("MESSAGE") && p.ttl == Some(MessageTtl)
    ensures p.from == Some(n.id) && p.to == Some(dest) && p.payload == Some(text)
    ensures p.msgId.Some? && StartsWith(p.msgId.value, n.id + ":")
  {
    Packet(Some("MESSAGE"), None, Some(n.id + ":" + ShowNat(millis) + ":" + nonce),
           Some(n.id), Some(dest), Some(text), Some(MessageTtl))
  }

  /** The addressee of a sent message shows it, attributed to the sender, and does not pass it on. */
  lemma SentMessageShown(a: Node, b: Node, text: string, millis: nat, nonce: string,
                         senderIp: string, now: int, order: seq<Option<string>>)
    requires senderIp != b.localIp
    requires SendMessage(a, b.id, text, millis, nonce).msgId !in b.seen
    requires CanRecord(b.seen, SendMessage(a, b.id, text, millis, nonce), order)
    ensures var r := Receive(b, senderIp, SendMessage(a, b.id, text, millis, nonce), now, order);
      r.events == [Shown(Some(a.id), Some(text))] && r.broadcasts == []
  {
  }

  /** Any other node that has not seen a sent message passes it on once, with one less ttl, and shows nothing. */
  lemma SentMessageForwarded(a: Node, c: Node, dest: string, text: string, millis: nat, nonce: string,
                             senderIp: string, now: int, order: seq<Option<string>>)
    requires senderIp != c.localIp && dest != c.id
    requires SendMessage(a, dest, text, millis, nonce).msgId !in c.seen
    requires CanRecord(c.seen, SendMessage(a, dest, text, millis, nonce), order)
    ensures var p := SendMessage(a, dest, text, millis, nonce);
      var r := Receive(c, senderIp, p, now, order);
      r.events == [] && r.broadcasts == [p.(ttl := Some(MessageTtl - 1))]
  {
  }

  /** A second HELLO from a known peer refreshes its time but is not announced again. */
  lemma HelloAnnouncedOnce(n: Node, p: Packet, t1: int, t2: int)
    requires Truthy(p.nodeId) && p.nodeId.value != n.id
    ensures var first := HandleHello(n, p, t1);
      var second := HandleHello(first.node, p, t2);
      second.events == [] && second.node.peers == n.peers[p.nodeId.value := t2]
  {
  }

  /** The node after a run of HELLOs, each with its arrival time, and every announcement made on the way. */
  function HandleHellos(n: Node, hs: seq<(Packet, int)>): (Node, seq<Event>)
    decreases |hs|
  {
    if |hs| == 0 then (n, [])
    else
      var first := HandleHello(n, hs[0].0, hs[0].1);
      var rest := HandleHellos(first.node, hs[1..]);
      (rest.0, first.events + rest.1)
  }

  /**
   * Peers already in the table are never announced again: a run of HELLOs
   * from known peers (or the node itself, or without an id) announces
   * nothing and leaves the set of known peers as it was.
   */
  lemma {:induction false} KnownHellosAnnounceNothing(n: Node, hs: seq<(Packet, int)>)
    requires forall i :: 0 <= i < |hs| ==>
      !Truthy(hs[i].0.nodeId) || hs[i].0.nodeId.value == n.id || hs[i].0.nodeId.value in n.peers
    ensures HandleHellos(n, hs).1 == []
    ensures HandleHellos(n, hs).0.peers.Keys == n.peers.Keys
    decreases |hs|
  {
    if |hs| > 0 {
      var first := HandleHello(n, hs[0].0, hs[0].1);
      assert first.events == [] && first.node.peers.Keys == n.peers.Keys && first.node.id == n.id;
      assert forall i :: 0 <= i < |hs[1..]| ==> hs[1..][i] == hs[i + 1];
      KnownHellosAnnounceNothing(first.node, hs[1..]);
    }
  }
}

=== FILE: text.dfy ===
/**
 * The handful of Python string operations the mesh code relies on, over
 * `string` (a sequence of characters): `strip`, `split(sep)`, `split()`,
 * `startswith`, `in`, ASCII `upper`/`lower`, and decimal rendering of
 * non-negative integers.
 */
module Text {
  import opened Wrappers

  /** Python truthiness of an optional string: present and non-empty. */
  predicate Truthy(o: Option<string>)
  {
    o.Some? && |o.value| > 0
  }

  /**
   * The ASCII characters `str.strip()` and `str.split()` treat as whitespace:
   * space, tab, newline, vertical tab, form feed, carriage return and the
   * four separators 0x1c-0x1f.
   */
  predicate IsSpace(c: char)
  {
    c == ' ' || c == '\t' || c == '\n' || c == '\r' || c as int == 11 || c as int == 12
    || 28 <= c as int <= 31
  }

  predicate NoSpace(s: string)
  {
    forall i :: 0 <= i < |s| ==> !IsSpace(s[i])
  }

  /** Gluing blank-free strings gives a blank-free string. */
  lemma NoSpaceConcat(a: string, b: string)
    requires NoSpace(a) && NoSpace(b)
    ensures NoSpace(a + b)
  {
    assert forall i :: 0 <= i < |a + b| ==> (a + b)[i] == if i < |a| then a[i] else b[i - |a|];
  }

  // ---------------------------------------------------------------- strip

  /** `s.lstrip()`: drops the leading whitespace and nothing else. */
  function TrimStart(s: string): (r: string)
    ensures |r| <= |s| && r == s[|s| - |r|..]
    ensures forall i :: 0 <= i < |s| - |r| ==> IsSpace(s[i])
    ensures |r| > 0 ==> !IsSpace(r[0])
  {
    if |s| > 0 && IsSpace(s[0]) then TrimStart(s[1..]) else s
  }

  /** `s.rstrip()`: drops the trailing whitespace and nothing else. */
  function TrimEnd(s: string): (r: string)
    ensures |r| <= |s| && r == s[..|r|]
    ensures forall i :: |r| <= i < |s| ==> IsSpace(s[i])
    ensures |r| > 0 ==> !IsSpace(r[|r| - 1])
  {
    if |s| > 0 && IsSpace(s[|s| - 1]) then TrimEnd(s[..|s| - 1]) else s
  }

  /** `sub` occurs in `s` starting at index `i`. */
  predicate OccursAt(s: string, sub: string, i: int)
  {
    0 <= i <= |s| - |sub| && s[i..i + |sub|] == sub
  }

  /** A prefix of a prefix of `s` is a prefix of `s`. */
  lemma PrefixOfPrefix(s: string, t: string, i: nat)
    requires i <= |t| <= |s| && t == s[..|t|]
    ensures t[..i] == s[..i]
  {
  }

  /** Stripping a blank and then text that starts with a non-blank only trims the end. */
  lemma StripAfterBlank(u: string)
    requires |u| > 0 && !IsSpace(u[0])
    ensures Strip(" " + u) == TrimEnd(u)
  {
    TrimStartBlank(u);
    TrimStartKeeps(u);
  }

  /** `lstrip` leaves a string that starts with a non-blank unchanged. */
  lemma TrimStartKeeps(s: string)
    requires |s| > 0 && !IsSpace(s[0])
    ensures TrimStart(s) == s
  {
  }

  /** `rstrip` keeps every character up to the last non-blank one. */
  lemma TrimEndKeeps(s: string, i: nat)
    requires i < |s| && !IsSpace(s[i])
    ensures i < |TrimEnd(s)|
  {
  }

  /** `s.strip()`: the longest slice of `s` that neither starts nor ends with whitespace. */
  function Strip(s: string): (r: string)
    ensures exists i :: OccursAt(s, r, i)
    ensures |r| > 0 ==> !IsSpace(r[0]) && !IsSpace(r[|r| - 1])
  {
    var t := TrimStart(s);
    var r := TrimEnd(t);
    PrefixOfSuffix(s, t, r);
    r
  }

  /** A prefix of a suffix of `s` occurs in `s` where the suffix starts. */
  lemma PrefixOfSuffix(s: string, t: string, r: string)
    requires |t| <= |s| && t == s[|s| - |t|..]
    requires |r| <= |t| && r == t[..|r|]
    ensures OccursAt(s, r, |s| - |t|)
    ensures |r| > 0 ==> r[0] == t[0]
  {
    var k := |s| - |t|;
    assert s[k..k + |r|] == t[..|r|];
  }

  /** Stripping text that already has no surrounding whitespace, followed by whitespace, gives the text back. */
  lemma StripTrailingSpace(s: string, tail: string)
    requires |s| > 0 && !IsSpace(s[0]) && !IsSpace(s[|s| - 1])
    requires forall i :: 0 <= i < |tail| ==> IsSpace(tail[i])
    ensures Strip(s + tail) == s
  {
    var t := TrimStart(s + tail);
    assert t == s + tail;
    TrimEndSpaces(s, tail);
  }

  lemma {:induction false} TrimEndSpaces(s: string, tail: string)
    requires |s| > 0 && !IsSpace(s[|s| - 1])
    requires forall i :: 0 <= i < |tail| ==> IsSpace(tail[i])
    ensures TrimEnd(s + tail) == s
    decreases |tail|
  {
    if |tail| == 0 {
      assert s + tail == s;
    } else {
      var u := s + tail;
      assert u[..|u| - 1] == s + tail[..|tail| - 1];
      TrimEndSpaces(s, tail[..|tail| - 1]);
    }
  }

  // ---------------------------------------------------------------- split(sep)

  /** Index of the first occurrence of `c` in `s`. */
  function IndexOf(s: string, c: char): (i: nat)
    requires c in s
    ensures i < |s| && s[i] == c && c !in s[..i]
  {
    if s[0] == c then 0 else 1 + IndexOf(s[1..], c)
  }

  /** Inverse of `Split`: the parts glued back together with `sep` between them (`sep.join(parts)`). */
  function Join(parts: seq<string>, sep: char): string
  {
    if |parts| == 0 then ""
    else if |parts| == 1 then parts[0]
    else parts[0] + [sep] + Join(parts[1..], sep)
  }

  /** `s.split(sep)` for a one-character separator: never empty, no part holds `sep`, and joining restores `s`. */
  function Split(s: string, sep: char): (parts: seq<string>)
    ensures |parts| >= 1
    ensures forall i :: 0 <= i < |parts| ==> sep !in parts[i]
    ensures Join(parts, sep) == s
    decreases |s|
  {
    if sep !in s then [s]
    else
      var i := IndexOf(s, sep);
      var rest := Split(s[i + 1..], sep);
      assert s == s[..i] + [sep] + s[i + 1..];
      [s[..i]] + rest
  }

  /** Splitting undoes joining, whenever no part holds the separator. */
  lemma {:induction false} SplitJoin(parts: seq<string>, sep: char)
    requires |parts| >= 1
    requires forall i :: 0 <= i < |parts| ==> sep !in parts[i]
    ensures Split(Join(parts, sep), sep) == parts
    decreases |parts|
  {
    if |parts| > 1 {
      var head := parts[0];
      var tail := Join(parts[1..], sep);
      var s := Join(parts, sep);
      JoinStep(parts, sep);
      assert s[..|head|] == head;
      assert s[|head|] == sep;
      IndexOfAt(s, sep, |head|);
      assert s[|head| + 1..] == tail;
      SplitStep(s, sep);
      SplitJoin(parts[1..], sep);
      assert parts == [head] + parts[1..];
    }
  }

  /** `Join` unfolded once. */
  lemma JoinStep(parts: seq<string>, sep: char)
    requires |parts| > 1
    ensures Join(parts, sep) == parts[0] + [sep] + Join(parts[1..], sep)
  {
  }

  /** `Split` unfolded once, at the first separator. */
  lemma SplitStep(s: string, sep: char)
    requires sep in s
    ensures Split(s, sep) == [s[..IndexOf(s, sep)]] + Split(s[IndexOf(s, sep) + 1..], sep)
  {
  }

  /** The first occurrence of `c` is the position before which `c` does not occur. */
  lemma IndexOfAt(s: string, c: char, i: nat)
    requires i < |s| && s[i] == c && c !in s[..i]
    ensures IndexOf(s, c) == i
  {
  }

  /** In `a`, `c`, `b` with `c` absent from `a`, the first `c` is the one after `a`, and `b` follows it. */
  lemma IndexOfJoined(a: string, c: char, b: string)
    requires c !in a
    ensures c in a + [c] + b && IndexOf(a + [c] + b, c) == |a| && (a + [c] + b)[|a| + 1..] == b
  {
    var s := a + [c] + b;
    assert s[..|a|] == a && s[|a|] == c;
    IndexOfAt(s, c, |a|);
  }

  /** The part of `s` before the first `c`, or all of `s` when `c` does not occur. */
  function UpTo(s: string, c: char): (r: string)
    ensures |r| <= |s| && r == s[..|r|] && c !in r
    ensures |r| < |s| ==> s[|r|] == c
  {
    if c in s then s[..IndexOf(s, c)] else s
  }

  /** A `c`-free prefix of `s` that is followed by `c` or ends `s` is `UpTo(s, c)`. */
  lemma UpToIs(s: string, c: char, r: string)
    requires |r| <= |s| && r == s[..|r|] && c !in r
    requires |r| < |s| ==> s[|r|] == c
    ensures UpTo(s, c) == r
  {
  }

  /** Cutting at the first `c` skips a `c`-free head. */
  lemma UpToAppend(a: string, b: string, c: char)
    requires c !in a
    ensures UpTo(a + b, c) == a + UpTo(b, c)
  {
    var u := UpTo(b, c);
    assert (a + b)[..|a + u|] == a + u;
    UpToIs(a + b, c, a + u);
  }

  /** The first field of `s.split(c)` is the text before the first `c`. */
  lemma SplitHead(s: string, c: char)
    ensures Split(s, c)[0] == UpTo(s, c)
  {
    if c in s {
      SplitStep(s, c);
    }
  }

  // ---------------------------------------------------------------- split()

  /** The longest non-empty whitespace-free prefix of `t`. */
  function Token(t: string): (w: string)
    requires |t| > 0 && !IsSpace(t[0])
    ensures 0 < |w| <= |t| && w == t[..|w|] && NoSpace(w)
    ensures |w| < |t| ==> IsSpace(t[|w|])
  {
    if |t| == 1 || IsSpace(t[1]) then t[..1] else t[..1] + Token(t[1..])
  }

  predicate IsWord(w: string)
  {
    |w| > 0 && NoSpace(w)
  }

  /** `s.split()`: the maximal runs of non-whitespace characters, in order. */
  function Words(s: string): (ws: seq<string>)
    ensures forall i :: 0 <= i < |ws| ==> IsWord(ws[i])
    decreases |s|
  {
    var t := TrimStart(s);
    if |t| == 0 then []
    else
      var w := Token(t);
      var rest := Words(t[|w|..]);
      WordsCons(w, rest);
      [w] + rest
  }

  lemma WordsCons(w: string, rest: seq<string>)
    requires IsWord(w)
    requires forall i :: 0 <= i < |rest| ==> IsWord(rest[i])
    ensures forall i :: 0 <= i < |[w] + rest| ==> IsWord(([w] + rest)[i])
  {
  }

  /** `lstrip` skips one leading blank. */
  lemma TrimStartBlank(s: string)
    ensures TrimStart(" " + s) == TrimStart(s)
  {
    assert (" " + s)[1..] == s;
  }

  /** A word followed by whitespace or nothing is the token at the head. */
  lemma {:induction false} TokenIs(t: string, w: string)
    requires IsWord(w) && |w| <= |t| && t[..|w|] == w
    requires |w| < |t| ==> IsSpace(t[|w|])
    ensures |t| > 0 && !IsSpace(t[0]) && Token(t) == w
    decreases |w|
  {
    assert t[0] == w[0];
    if |w| == 1 {
      assert t[..1] == w;
    } else {
      assert t[1] == w[1];
      assert t[1..][..|w| - 1] == w[1..];
      TokenIs(t[1..], w[1..]);
      assert w == t[..1] + w[1..];
    }
  }

  /** `split()` of a single word is that word. */
  lemma {:induction false} WordsOfWord(w: string)
    requires IsWord(w)
    ensures Words(w) == [w]
  {
    TokenIs(w, w);
    assert w[|w|..] == [];
  }

  /** `split()` of a word, a blank, and more text: the word, then the words of the rest. */
  lemma {:induction false} WordsOfSpaced(w: string, s: string)
    requires IsWord(w)
    ensures Words(w + " " + s) == [w] + Words(s)
  {
    var t := w + " " + s;
    assert TrimStart(t) == t;
    TokenIs(t, w);
    assert t[|w|..] == " " + s;
    TrimStartBlank(s);
  }

  // ---------------------------------------------------------------- prefixes, substrings

  predicate StartsWith(s: string, prefix: string)
  {
    |prefix| <= |s| && s[..|prefix|] == prefix
  }

  /** Python's `sub in s`. */
  predicate Contains(s: string, sub: string)
    decreases |s|
  {
    StartsWith(s, sub) || (|s| > 0 && Contains(s[1..], sub))
  }

  /** `Contains` holds exactly when `sub` occurs at some position of `s`. */
  lemma {:induction false} ContainsAt(s: string, sub: string)
    ensures Contains(s, sub) <==> exists i :: OccursAt(s, sub, i)
    decreases |s|
  {
    if StartsWith(s, sub) {
      assert OccursAt(s, sub, 0);
    }
    if |s| > 0 {
      ContainsAt(s[1..], sub);
      if Contains(s[1..], sub) {
        var i :| OccursAt(s[1..], sub, i);
        assert OccursAt(s, sub, i + 1);
      }
      if exists i :: OccursAt(s, sub, i) {
        var i :| OccursAt(s, sub, i);
        if i > 0 {
          assert OccursAt(s[1..], sub, i - 1);
        }
      }
    }
  }

  // ---------------------------------------------------------------- ASCII case

  function LowerChar(c: char): char
  {
    if 'A' <= c <= 'Z' then (c as int + 32) as char else c
  }

  function UpperChar(c: char): char
  {
    if 'a' <= c <= 'z' then (c as int - 32) as char else c
  }

  /** `s.lower()` on ASCII letters. */
  function Lower(s: string): (r: string)
    ensures |r| == |s| && forall i :: 0 <= i < |s| ==> r[i] == LowerChar(s[i])
  {
    seq(|s|, i requires 0 <= i < |s| => LowerChar(s[i]))
  }

  /** `s.upper()` on ASCII letters. */
  function Upper(s: string): (r: string)
    ensures |r| == |s| && forall i :: 0 <= i < |s| ==> r[i] == UpperChar(s[i])
  {
    seq(|s|, i requires 0 <= i < |s| => UpperChar(s[i]))
  }

  /** Two strings are equal up to ASCII case exactly when their lower-case forms agree. */
  predicate EqualsIgnoreCase(a: string, b: string)
  {
    Lower(a) == Lower(b)
  }

  // ---------------------------------------------------------------- decimal numbers

  predicate IsDigit(c: char)
  {
    '0' <= c <= '9'
  }

  function DigitChar(d: nat): (c: char)
    requires d < 10
    ensures IsDigit(c) && c as int - '0' as int == d
  {
    ('0' as int + d) as char
  }

  function DigitValue(c: char): nat
    requires IsDigit(c)
  {
    c as int - '0' as int
  }

  /** Python's `str(n)` for a non-negative integer: its decimal digits, most significant first. */
  function ShowNat(n: nat): (r: string)
    ensures |r| >= 1
    ensures forall i :: 0 <= i < |r| ==> IsDigit(r[i])
  {
    if n < 10 then [DigitChar(n)] else ShowNat(n / 10) + [DigitChar(n % 10)]
  }

  /** The value of a string of decimal digits. */
  function ReadNat(s: string): nat
    requires forall i :: 0 <= i < |s| ==> IsDigit(s[i])
  {
    if |s| == 0 then 0 else ReadNat(s[..|s| - 1]) * 10 + DigitValue(s[|s| - 1])
  }

  /** Reading back a rendered number gives the number. */
  lemma {:induction false} ReadShowNat(n: nat)
    ensures ReadNat(ShowNat(n)) == n
  {
    if n >= 10 {
      var s := ShowNat(n);
      assert s[..|s| - 1] == ShowNat(n / 10);
      ReadShowNat(n / 10);
    }
  }

  /** Decimal rendering is injective. */
  lemma ShowNatInjective(m: nat, n: nat)
    requires ShowNat(m) == ShowNat(n)
    ensures m == n
  {
    ReadShowNat(m);
    ReadShowNat(n);
  }

  /** If `a + [c] + x == b + [c] + y` and `c` occurs in neither `a` nor `b`, then `a == b`. */
  lemma SameFieldBeforeSeparator(a: string, x: string, b: string, y: string, c: char)
    requires c !in a && c !in b
    requires a + [c] + x == b + [c] + y
    ensures a == b
  {
    var s := a + [c] + x;
    assert s[|a|] == c;
    assert s[|b|] == c;
    assert |a| == |b|;
    assert a == s[..|a|];
    assert b == s[..|b|];
  }
}

=== FILE: transport.dfy ===
/**
 * The two point-to-point transports under the routed mesh node: the
 * Bluetooth RFCOMM transport (a table of open connections, each read
 * through the newline framing) and the UDP transport used over a WiFi
 * hotspot (unicast to a given address or broadcast).  Sockets are gone:
 * a connection is an address with an opaque handle, a received chunk is
 * an input, and whether a socket write succeeds is an oracle.
 */
module Transport {
  import opened Wrappers
  import opened Text
  import opened OrdMaps
  import opened Framing

  /** The UDP broadcast address a hotspot transport uses when it has no target. */
  const BroadcastAddress := "255.255.255.255"

  /** Bluetooth state: whether the receive loops run, and the open connections by address, in the order they opened. */
  datatype Bluetooth = Bluetooth(running: bool, connections: OrdMap<string, nat>)

  /**
   * One turn of a connection's receive loop.  `open` says whether the loop
   * goes on; `lines` are the lines handed to the receive callback, and
   * `buffer` is what the loop keeps for the next chunk.
   */
  datatype Received = Received(transport: Bluetooth, open: bool, lines: seq<Bytes>, buffer: Bytes)

  /** The addresses a send wrote to, in order, and what `send` returned. */
  datatype Attempt = Attempt(targets: seq<string>, ok: bool)

  /** A new connection (an accepted client, or the server a client dialled) joins the table under its address. */
  function Connect(t: Bluetooth, addr: string, sock: nat): (r: Bluetooth)
    ensures r.connections.entries == t.connections.entries[addr := sock]
    ensures addr in t.connections.entries ==> r.connections.keys == t.connections.keys
    ensures addr !in t.connections.entries ==> r.connections.keys == t.connections.keys + [addr]
    ensures r.running == t.running
  {
    t.(connections := Put(t.connections, addr, sock))
  }

  /** The read failed, the peer closed, or the transport was stopped. */
  predicate ReadEnds(t: Bluetooth, chunk: Option<Bytes>)
  {
    !t.running || chunk.None? || chunk == Some([])
  }

  /**
   * The callback raises while handling the line at index `failsAt` of the
   * lines the chunk completes.
   */
  predicate CallbackRaises(t: Bluetooth, buffer: Bytes, chunk: Option<Bytes>, hasCallback: bool, failsAt: Option<nat>)
  {
    && !ReadEnds(t, chunk) && hasCallback && failsAt.Some?
    && failsAt.value < |NonEmpty(Segments(buffer + chunk.value))|
  }

  /**
   * The receive loop for the connection at `addr`, given the result of one
   * `recv`: `None` when it raised, `Some(chunk)` otherwise, and the index of
   * the completed line, if any, on which the receive callback raises.  A
   * stopped transport, a failed read or an empty chunk ends the loop and
   * removes the connection; otherwise the chunk is appended to the buffer
   * and every complete non-empty line is cut off and handed on, when a
   * callback is registered.  A callback that raises is caught by the loop's
   * handler: the line it raised on was handed on, later lines are not, and
   * the loop ends and removes the connection.  An ended loop's buffer is
   * dropped.
   */
  function ReceiveChunk(t: Bluetooth, addr: string, buffer: Bytes, chunk: Option<Bytes>, hasCallback: bool,
                        failsAt: Option<nat>): (r: Received)
    ensures !r.open <==> ReadEnds(t, chunk) || CallbackRaises(t, buffer, chunk, hasCallback, failsAt)
    ensures !r.open ==> r.transport.connections.entries == t.connections.entries - {addr}
    ensures ReadEnds(t, chunk) ==> r.lines == []
    ensures CallbackRaises(t, buffer, chunk, hasCallback, failsAt) ==>
      r.lines == NonEmpty(Segments(buffer + chunk.value))[..failsAt.value + 1]
    ensures r.open ==>
      && r.transport == t
      && Newline !in r.buffer
      && Terminated(Segments(buffer + chunk.value)) + r.buffer == buffer + chunk.value
      && r.lines == (if hasCallback then NonEmpty(Segments(buffer + chunk.value)) else [])
    ensures r.transport.running == t.running
  {
    if ReadEnds(t, chunk) then
      Received(t.(connections := Remove(t.connections, addr)), false, [], buffer)
    else
      var all := buffer + chunk.value;
      var d := Drain(all);
      DrainLosesNothing(all);
      if CallbackRaises(t, buffer, chunk, hasCallback, failsAt) then
        Received(t.(connections := Remove(t.connections, addr)), false, d.lines[..failsAt.value + 1], buffer)
      else
        Received(t, true, if hasCallback then d.lines else [], d.rest)
  }

  /** The lines and the leftover after a run of chunks is received one at a time. */
  function Feed(buffer: Bytes, chunks: seq<Bytes>): (r: Drained)
    ensures Newline !in buffer ==> Newline !in r.rest
    decreases |chunks|
  {
    if |chunks| == 0 then Drained([], buffer)
    else
      var d := Drain(buffer + chunks[0]);
      var tail := Feed(d.rest, chunks[1..]);
      Drained(d.lines + tail.lines, tail.rest)
  }

  /** All the chunks, back to back. */
  function Concat(chunks: seq<Bytes>): Bytes
  {
    if |chunks| == 0 then [] else chunks[0] + Concat(chunks[1..])
  }

  /**
   * However the stream is cut into chunks, the receive loop hands on the
   * lines that draining the whole stream at once would, and keeps the same
   * leftover.
   */
  lemma {:induction false} FeedIsDrain(buffer: Bytes, chunks: seq<Bytes>)
    requires Newline !in buffer
    ensures Feed(buffer, chunks) == Drain(buffer + Concat(chunks))
    decreases |chunks|
  {
    if |chunks| == 0 {
      assert buffer + Concat(chunks) == buffer;
    } else {
      var c := chunks[0];
      var cs := chunks[1..];
      var d := Drain(buffer + c);
      assert buffer + Concat(chunks) == (buffer + c) + Concat(cs);
      DrainConcat(buffer + c, Concat(cs));
      FeedIsDrain(d.rest, cs);
    }
  }

  /**
   * BluetoothTransport.send: a truthy target with an open connection gets the
   * data alone and the result is that write's; otherwise every connection,
   * in table order, gets a copy and the result is whether there was any.
   */
  function BluetoothSend(t: Bluetooth, target: Option<string>, sendOk: string -> bool): (r: Attempt)
    ensures Truthy(target) && target.value in t.connections.entries ==>
      r == Attempt([target.value], sendOk(target.value))
    ensures !(Truthy(target) && target.value in t.connections.entries) ==>
      r.targets == t.connections.keys && (r.ok <==> |t.connections.entries| > 0)
  {
    if Truthy(target) && target.value in t.connections.entries then
      Attempt([target.value], sendOk(target.value))
    else
      KeysCard(t.connections);
      Attempt(t.connections.keys, |t.connections.keys| > 0)
  }

  /** stop: the loops end and every connection is closed and forgotten. */
  function BluetoothStop(t: Bluetooth): (r: Bluetooth)
    ensures !r.running && r.connections.entries == map[] && r.connections.keys == []
  {
    Bluetooth(false, Empty())
  }

  /** After stop, a send writes nowhere and reports failure, whatever the target. */
  lemma SendAfterStop(t: Bluetooth, target: Option<string>, sendOk: string -> bool)
    ensures BluetoothSend(BluetoothStop(t), target, sendOk) == Attempt([], false)
  {
  }

  /** A peer that has just connected can be written to alone. */
  lemma ConnectedPeerIsUnicast(t: Bluetooth, addr: string, sock: nat, sendOk: string -> bool)
    requires addr != ""
    ensures BluetoothSend(Connect(t, addr, sock), Some(addr), sendOk) == Attempt([addr], sendOk(addr))
  {
  }

  /**
   * Once a connection's loop has ended, a send aimed at it is no longer a
   * unicast: it falls back to every remaining connection, none of which is it.
   */
  lemma {:induction false} ClosedPeerNotTargeted(t: Bluetooth, addr: string, buffer: Bytes, chunk: Option<Bytes>, hasCallback: bool,
                                                 failsAt: Option<nat>, sendOk: string -> bool)
    requires !ReceiveChunk(t, addr, buffer, chunk, hasCallback, failsAt).open
    ensures var r := ReceiveChunk(t, addr, buffer, chunk, hasCallback, failsAt);
      var a := BluetoothSend(r.transport, Some(addr), sendOk);
      addr !in a.targets && a.targets == r.transport.connections.keys
  {
    var r := ReceiveChunk(t, addr, buffer, chunk, hasCallback, failsAt);
    var c := r.transport.connections;
    assert addr !in c.entries;
    assert forall k :: k in c.keys <==> k in c.entries;
  }

  /** The UDP transport: whether it has a socket, whether it runs, and the port every datagram goes to. */
  datatype Udp = Udp(hasSocket: bool, running: bool, port: int)

  /** What a UDP send wrote, if anything: the destination address and port. */
  datatype Datagram = Datagram(address: string, port: int)

  datatype UdpAttempt = UdpAttempt(sent: Option<Datagram>, ok: bool)

  /**
   * WiFiDirectTransport.send: without an open, running socket nothing is
   * written and the result is false; otherwise one datagram goes to the
   * truthy target, or to the broadcast address, on the transport's port,
   * and the result is whether the write succeeded.
   */
  function UdpSend(t: Udp, target: Option<string>, sendOk: bool): (r: UdpAttempt)
    ensures !t.hasSocket || !t.running ==> r == UdpAttempt(None, false)
    ensures t.hasSocket && t.running ==> r.sent.Some? && r.sent.value.port == t.port && r.ok == sendOk
    ensures t.hasSocket && t.running && Truthy(target) ==> r.sent.value.address == target.value
    ensures t.hasSocket && t.running && !(Truthy(target)) ==> r.sent.value.address == BroadcastAddress
  {
    if !t.hasSocket || !t.running then UdpAttempt(None, false)
    else if Truthy(target) then UdpAttempt(Some(Datagram(target.value, t.port)), sendOk)
    else UdpAttempt(Some(Datagram(BroadcastAddress, t.port)), sendOk)
  }

  /** stop: the loop ends; the closed socket object stays behind. */
  function UdpStop(t: Udp): (r: Udp)
    ensures !r.running && r.port == t.port
  {
    t.(running := false)
  }

  /** After stop, a UDP send writes nothing and reports failure. */
  lemma UdpSendAfterStop(t: Udp, target: Option<string>, sendOk: bool)
    ensures UdpSend(UdpStop(t), target, sendOk) == UdpAttempt(None, false)
  {
  }
}

=== FILE: web_chat.dfy ===
/**
 * The browser-fronted chat node of web_mesh_chat.py: the same broadcast
 * node as the Termux one, except that messages addressed to "ALL" are
 * delivered locally (and, like messages for this node, never re-sent), and
 * peer-table changes are pushed through the registered message callbacks.  Also the parsing of
 * `ip addr` output that picks the node's local address.
 */
module WebChat {
  import opened Wrappers
  import opened Text
  import opened Flood
  import SeenCache
  import Staleness

  /** The destination that every node treats as addressed to itself. */
  const Everyone := "ALL"

  datatype Node = Node(id: string, peers: map<string, int>, seen: SeenIds)

  datatype Event =
    | PeerChange
    | Delivered(from: Option<string>, payload: Option<string>)

  datatype Step = Step(node: Node, broadcasts: seq<Packet>, events: seq<Event>)

  /** HELLO: ignored for a missing or own id; otherwise the peer is stamped, and the callbacks are told only if it is new. */
  function HandleHello(n: Node, p: Packet, now: int): (r: Step)
    ensures !Truthy(p.nodeId) || p.nodeId.value == n.id ==> r == Step(n, [], [])
    ensures Truthy(p.nodeId) && p.nodeId.value != n.id ==>
      && r.node == n.(peers := n.peers[p.nodeId.value := now])
      && r.broadcasts == []
      && (r.events == [PeerChange] <==> p.nodeId.value !in n.peers)
      && (r.events == [] <==> p.nodeId.value in n.peers)
  {
    if !Truthy(p.nodeId) || p.nodeId.value == n.id then Step(n, [], [])
    else
      var id := p.nodeId.value;
      Step(n.(peers := n.peers[id := now]), [], if id !in n.peers then [PeerChange] else [])
  }

  /** Whether this node delivers a message: addressed to it, or to everyone. */
  predicate IsLocal(n: Node, p: Packet)
  {
    p.to == Some(n.id) || p.to == Some(Everyone)
  }

  /**
   * MESSAGE: a duplicate changes nothing; a new id is recorded under the cap;
   * a message to this node or to "ALL" is delivered and not re-broadcast;
   * any other is re-broadcast iff its ttl is positive, with ttl - 1.
   */
  function HandleMessage(n: Node, p: Packet, order: seq<Option<string>>): (r: Step)
    requires CanRecord(n.seen, p, order)
    ensures p.msgId in n.seen ==> r == Step(n, [], [])
    ensures p.msgId !in n.seen ==> r.node == n.(seen := SeenCache.Record(n.seen, p.msgId, order))
    ensures p.msgId !in n.seen && IsLocal(n, p) ==>
      r.broadcasts == [] && r.events == [Delivered(p.from, p.payload)]
    ensures p.msgId !in n.seen && !IsLocal(n, p) ==>
      r.events == [] && (|r.broadcasts| == 1 <==> p.ttl.GetOr(0) > 0) && |r.broadcasts| <= 1
    ensures forall q :: q in r.broadcasts ==> Relays(p, q)
  {
    var h := Flood.HandleMessage(n.seen, p, IsLocal(n, p), order);
    var n' := n.(seen := h.seen);
    match h.outcome
    case Duplicate => Step(n, [], [])
    case Deliver(from, payload) => Step(n', [], [Delivered(from, payload)])
    case Rebroadcast(q) => Step(n', [q], [])
    case Expired => Step(n', [], [])
  }

  /** `_handle_packet`; this node has no own-address filter, its own HELLOs are dropped by the id check. */
  function HandlePacket(n: Node, p: Packet, now: int, order: seq<Option<string>>): (r: Step)
    requires CanRecord(n.seen, p, order)
    ensures p.kind != Some("HELLO") && p.kind != Some("MESSAGE") ==> r == Step(n, [], [])
    ensures p.kind == Some("HELLO") ==> r == HandleHello(n, p, now)
    ensures p.kind == Some("MESSAGE") ==> r == HandleMessage(n, p, order)
  {
    if p.kind == Some("HELLO") then HandleHello(n, p, now)
    else if p.kind == Some("MESSAGE") then HandleMessage(n, p, order)
    else Step(n, [], [])
  }

  /**
   * A HELLO from another node is the one packet whose handling takes the
   * node's lock (to stamp the peer).
   */
  predicate TakesLock(n: Node, p: Packet)
  {
    p.kind == Some("HELLO") && Truthy(p.nodeId) && p.nodeId.value != n.id
  }

  /**
   * The receive loop handling `p` while the lock is, or is not, held for good
   * by another thread: a packet that needs the lock is never handled (`None`),
   * every other one is handled as usual.
   */
  function HandlePacketWhile(lockHeld: bool, n: Node, p: Packet, now: int, order: seq<Option<string>>): (r: Option<Step>)
    requires CanRecord(n.seen, p, order)
    ensures r.None? <==> lockHeld && TakesLock(n, p)
    ensures r.Some? ==> r.value == HandlePacket(n, p, now, order)
  {
    if lockHeld && TakesLock(n, p) then None else Some(HandlePacket(n, p, now, order))
  }

  /** The outcome of one cleanup pass, and whether the cleanup thread is left blocked holding the lock. */
  datatype Cleanup = Cleanup(step: Step, stuck: bool)

  /**
   * `_cleanup_loop` as written, with `callbacks` message callbacks registered
   * (`start_server` always registers one, however many browsers connect).  It
   * evicts under the lock and sends the notice before releasing it; building
   * each notice calls `get_peers`, which takes the same non-reentrant lock.
   * So the stale peers are gone, no notice ever reaches a callback, and once a
   * pass evicts anybody with a callback registered the thread blocks for
   * good with the lock held.
   */
  function SweepAsWritten(n: Node, now: int, callbacks: nat): (r: Cleanup)
    ensures r.step.node.peers.Keys == n.peers.Keys - Staleness.StaleIds(n.peers, now)
    ensures forall k :: k in r.step.node.peers ==> r.step.node.peers[k] == n.peers[k]
    ensures r.step.node.seen == n.seen && r.step.node.id == n.id && r.step.broadcasts == []
    ensures r.step.events == []
    ensures r.stuck <==> Staleness.StaleIds(n.peers, now) != {} && callbacks > 0
  {
    var stale := Staleness.StaleIds(n.peers, now);
    Cleanup(Step(n.(peers := Staleness.Sweep(n.peers, now)), [], []), stale != {} && callbacks > 0)
  }

  /**
   * The discrepancy: whenever a pass evicts a peer while a callback is
   * registered, the written loop evicts the same peers as the intended one
   * but sends no notice, and afterwards the next HELLO from another node is
   * never handled.
   */
  lemma {:induction false} EvictionDeadlocks(n: Node, now: int, callbacks: nat, p: Packet, later: int, order: seq<Option<string>>)
    requires Staleness.StaleIds(n.peers, now) != {} && callbacks > 0
    requires TakesLock(n, p) && CanRecord(n.seen, p, order)
    ensures var c := SweepAsWritten(n, now, callbacks);
      && c.stuck && c.step.events == [] && c.step.node == Sweep(n, now).node
      && Sweep(n, now).events == [PeerChange]
      && HandlePacketWhile(c.stuck, c.step.node, p, later, order).None?
  {
    var c := SweepAsWritten(n, now, callbacks);
    assert c.step.node.peers == Sweep(n, now).node.peers;
  }

  /** A node with one peer last heard from at time 0, swept at time 20 with the one callback `start_server` registers. */
  lemma StaleSweepExample()
    ensures var n := Node("A", map["B" := 0], {});
      var c := SweepAsWritten(n, 20, 1);
      c.stuck && c.step.events == [] && Sweep(n, 20).events == [PeerChange]
  {
    var n := Node("A", map["B" := 0], {});
    assert "B" in Staleness.StaleIds(n.peers, 20);
  }

  /**
   * One cleanup pass as intended: exactly the stale peers go, and the callbacks
   * get one notice iff any went.  The rest of the model uses this one.
   */
  function Sweep(n: Node, now: int): (r: Step)
    ensures r.node.peers.Keys == n.peers.Keys - Staleness.StaleIds(n.peers, now)
    ensures forall k :: k in r.node.peers ==> r.node.peers[k] == n.peers[k]
    ensures r.node.seen == n.seen && r.node.id == n.id && r.broadcasts == []
    ensures r.events == [PeerChange] <==> Staleness.StaleIds(n.peers, now) != {}
    ensures r.events == [] <==> Staleness.StaleIds(n.peers, now) == {}
  {
    var stale := Staleness.StaleIds(n.peers, now);
    Step(n.(peers := Staleness.Sweep(n.peers, now)), [], if stale != {} then [PeerChange] else [])
  }

  /** `send_message`: the broadcast MESSAGE, ttl 10, id prefixed by `node_id:`. */
  function SendMessage(n: Node, dest: string, text: string, millis: nat, nonce: string): (p: Packet)
    ensures p.kind == Some("MESSAGE") && p.ttl == Some(MessageTtl)
    ensures p.from == Some(n.id) && p.to == Some(dest) && p.payload == Some(text)
    ensures p.msgId.Some? && StartsWith(p.msgId.value, n.id + ":")
  {
    Packet(Some("MESSAGE"), None, Some(n.id + ":" + ShowNat(millis) + ":" + nonce),
           Some(n.id), Some(dest), Some(text), Some(MessageTtl))
  }

  /** A sent message addressed to a node, or to "ALL", is delivered there, attributed to the sender, and not passed on. */
  lemma SentMessageDelivered(a: Node, b: Node, dest: string, text: string, millis: nat, nonce: string,
                             now: int, order: seq<Option<string>>)
    requires dest == b.id || dest == Everyone
    requires SendMessage(a, dest, text, millis, nonce).msgId !in b.seen
    requires CanRecord(b.seen, SendMessage(a, dest, text, millis, nonce), order)
    ensures var r := HandlePacket(b, SendMessage(a, dest, text, millis, nonce), now, order);
      r.events == [Delivered(Some(a.id), Some(text))] && r.broadcasts == []
  {
  }

  /** Any other node that has not seen a sent message passes it on once, with one less ttl, and delivers nothing. */
  lemma SentMessageForwarded(a: Node, c: Node, dest: string, text: string, millis: nat, nonce: string,
                             now: int, order: seq<Option<string>>)
    requires dest != c.id && dest != Everyone
    requires SendMessage(a, dest, text, millis, nonce).msgId !in c.seen
    requires CanRecord(c.seen, SendMessage(a, dest, text, millis, nonce), order)
    ensures var p := SendMessage(a, dest, text, millis, nonce);
      var r := HandlePacket(c, p, now, order);
      r.events == [] && r.broadcasts == [p.(ttl := Some(MessageTtl - 1))]
  {
  }

  /** A message to "ALL" travels one hop only: every receiver delivers it and none re-broadcasts it. */
  lemma BroadcastNotRelayed(n: Node, p: Packet, order: seq<Option<string>>)
    requires p.to == Some(Everyone)
    requires CanRecord(n.seen, p, order)
    ensures HandleMessage(n, p, order).broadcasts == []
  {
  }

  // ------------------------------------------------------------ `ip addr` parsing

  predicate PrivatePrefix(ip: string)
  {
    StartsWith(ip, "192.168.") || StartsWith(ip, "10.") || StartsWith(ip, "172.")
  }

  /** A line the scan looks at: it mentions `inet ` and not the loopback address. */
  predicate ScannedLine(line: string)
  {
    Contains(line, "inet ") && !Contains(line, "127.0.0.1")
  }

  /** The address after the `inet` word at position `i`, with any `/prefix` cut off. */
  function AddressAfter(parts: seq<string>, i: nat): string
    requires i + 1 < |parts|
  {
    Split(parts[i + 1], '/')[0]
  }

  /** Position `i` of the line's words holds `inet` followed by a private address. */
  predicate Candidate(parts: seq<string>, i: nat)
  {
    i + 1 < |parts| && parts[i] == "inet" && PrivatePrefix(AddressAfter(parts, i))
  }

  /** The first candidate address among the words from position `i` on. */
  function FirstCandidate(parts: seq<string>, i: nat): (r: Option<string>)
    ensures r.Some? ==> exists j :: i <= j && Candidate(parts, j) && r.value == AddressAfter(parts, j)
                                    && forall k :: i <= k < j ==> !Candidate(parts, k)
    ensures r.None? ==> forall j :: i <= j ==> !Candidate(parts, j)
    decreases |parts| - i
  {
    if i + 1 >= |parts| then None
    else if Candidate(parts, i) then Some(AddressAfter(parts, i))
    else FirstCandidate(parts, i + 1)
  }

  /**
   * The address one line of `ip addr` output contributes, if any: on a
   * scanned line, the first candidate among its whitespace-separated words.
   */
  function LineAddress(line: string): (r: Option<string>)
    ensures r.Some? ==> ScannedLine(line) && PrivatePrefix(r.value) && '/' !in r.value && NoSpace(r.value)
    ensures !ScannedLine(line) ==> r.None?
    ensures ScannedLine(line) ==> r == FirstCandidate(Words(Strip(line)), 0)
  {
    if !ScannedLine(line) then None
    else
      var parts := Words(Strip(line));
      var r := FirstCandidate(parts, 0);
      CandidateShape(parts, r);
      r
  }

  /** The line `inet IP/BITS` yields `IP` whenever `IP` is a private address and the line avoids the loopback address. */
  lemma {:induction false} LineAddressRoundTrip(ip: string, bits: string)
    requires PrivatePrefix(ip) && NoSpace(ip) && '/' !in ip && NoSpace(bits)
    requires !Contains("inet " + ip + "/" + bits, "127.0.0.1")
    ensures LineAddress("inet " + ip + "/" + bits) == Some(ip)
  {
    var line := "inet " + ip + "/" + bits;
    InetCandidate(ip, bits);
    assert ScannedLine(line);
  }

  /** The words of `inet IP/BITS` hold the candidate `IP` at their head. */
  lemma InetCandidate(ip: string, bits: string)
    requires PrivatePrefix(ip) && NoSpace(ip) && '/' !in ip && NoSpace(bits)
    ensures var line := "inet " + ip + "/" + bits;
      Contains(line, "inet ") && FirstCandidate(Words(Strip(line)), 0) == Some(ip)
  {
    var addr := ip + "/" + bits;
    var line := "inet " + ip + "/" + bits;
    AddressWord(ip, bits);
    assert line == "inet " + addr;
    InetLine(addr);
    var parts := Words(Strip(line));
    assert AddressAfter(parts, 0) == ip;
    assert Candidate(parts, 0);
  }

  /** `inet ADDR` is already stripped, starts the way a scanned line must, and splits into two words. */
  lemma InetLine(addr: string)
    requires IsWord(addr)
    ensures var line := "inet " + addr;
      Strip(line) == line && StartsWith(line, "inet ") && Words(line) == ["inet", addr]
  {
    InetStripped(addr);
    InetWords(addr);
  }

  /** `inet ADDR` has no blank at either end. */
  lemma InetStripped(addr: string)
    requires IsWord(addr)
    ensures Strip("inet " + addr) == "inet " + addr
  {
    var line := "inet " + addr;
    assert line + "" == line;
    assert line[0] == 'i' && line[|line| - 1] == addr[|addr| - 1];
    StripTrailingSpace(line, "");
  }

  /** `inet ADDR` splits into `inet` and `ADDR`. */
  lemma InetWords(addr: string)
    requires IsWord(addr)
    ensures Words("inet " + addr) == ["inet", addr]
  {
    assert "inet " + addr == "inet" + " " + addr;
    InetIsWord();
    WordsOfSpaced("inet", addr);
    WordsOfWord(addr);
  }

  /** The keyword `inet` is one word. */
  lemma InetIsWord()
    ensures IsWord("inet")
  {
    var w := "inet";
    assert w[0] == 'i' && w[1] == 'n' && w[2] == 'e' && w[3] == 't';
  }

  /** `IP/BITS` is one word, and its part before the first `/` is `IP`. */
  lemma AddressWord(ip: string, bits: string)
    requires |ip| > 0 && NoSpace(ip) && '/' !in ip && NoSpace(bits)
    ensures IsWord(ip + "/" + bits)
    ensures Split(ip + "/" + bits, '/')[0] == ip
  {
    var tail := "/" + bits;
    assert ip + "/" + bits == ip + tail;
    SlashNoSpace(bits);
    NoSpaceConcat(ip, tail);
    UpToAppend(ip, tail, '/');
    assert UpTo(tail, '/') == "";
    SplitHead(ip + tail, '/');
  }

  /** `/BITS` is blank-free when `BITS` is. */
  lemma SlashNoSpace(bits: string)
    requires NoSpace(bits)
    ensures NoSpace("/" + bits)
  {
    assert NoSpace("/");
    NoSpaceConcat("/", bits);
  }

  /** The candidate the scan returns carries the address shape the rest of the node relies on. */
  lemma CandidateShape(parts: seq<string>, r: Option<string>)
    requires forall i :: 0 <= i < |parts| ==> IsWord(parts[i])
    requires r.Some? ==> exists j :: 0 <= j && Candidate(parts, j) && r.value == AddressAfter(parts, j)
    ensures r.Some? ==> PrivatePrefix(r.value) && '/' !in r.value && NoSpace(r.value)
  {
    if r.Some? {
      var j :| 0 <= j && Candidate(parts, j) && r.value == AddressAfter(parts, j);
      SplitHeadNoSpace(parts[j + 1]);
    }
  }

  /** The part before the first `/` of a blank-free word is blank-free. */
  lemma SplitHeadNoSpace(s: string)
    requires NoSpace(s)
    ensures NoSpace(Split(s, '/')[0])
  {
    var parts := Split(s, '/');
    if |parts| > 1 {
      assert Join(parts, '/') == parts[0] + ['/'] + Join(parts[1..], '/');
    }
    assert s[..|parts[0]|] == parts[0];
  }

  function PerLine(lines: seq<string>): (r: seq<Option<string>>)
    ensures |r| == |lines| && forall k :: 0 <= k < |lines| ==> r[k] == LineAddress(lines[k])
  {
    seq(|lines|, i requires 0 <= i < |lines| => LineAddress(lines[i]))
  }

  /** The first present value of `xs`. */
  function FirstSome(xs: seq<Option<string>>): (r: Option<string>)
    ensures r.Some? ==> exists k :: 0 <= k < |xs| && xs[k] == r && forall j :: 0 <= j < k ==> xs[j].None?
    ensures r.None? ==> forall k :: 0 <= k < |xs| ==> xs[k].None?
  {
    if |xs| == 0 then None
    else if xs[0].Some? then xs[0]
    else
      var rest := FirstSome(xs[1..]);
      assert forall k :: 1 <= k < |xs| ==> xs[k] == xs[1..][k - 1];
      rest
  }

  /**
   * The local address `_get_local_ip` reads from the lines of `ip addr`
   * output: the first `inet` address, on a line without `127.0.0.1`, that
   * starts with `192.168.`, `10.` or `172.`, without its `/prefix`.  `None`
   * means the scan found nothing and the socket-based fallback decides.
   */
  function LocalIpFrom(lines: seq<string>): (r: Option<string>)
    ensures r.Some? ==> exists k :: 0 <= k < |lines| && LineAddress(lines[k]) == r
                                    && forall j :: 0 <= j < k ==> LineAddress(lines[j]).None?
    ensures r.None? ==> forall k :: 0 <= k < |lines| ==> LineAddress(lines[k]).None?
  {
    var perLine := PerLine(lines);
    FirstSome(perLine)
  }

  function ParseLocalIp(ipAddrOutput: string): (r: Option<string>)
    ensures r.Some? ==> PrivatePrefix(r.value) && '/' !in r.value && NoSpace(r.value)
  {
    LocalIpFrom(Split(ipAddrOutput, '\n'))
  }
}

=== FILE: wifi_direct.dfy ===
/**
 * The WiFi Direct chat node of wifi_direct_termux.py.  Peers are kept in
 * an insertion-ordered table (a Python dict) of username, IP address and
 * last-seen time; messages are unicast to every known peer's IP on port
 * 9999 rather than broadcast.  Packets are read with `message[key]`, so a
 * missing key aborts the handling of that datagram at the point of the
 * lookup; whatever was changed before the failing lookup stays changed.
 */
module WifiDirect {
  import opened Wrappers
  import opened Text
  import opened OrdMaps
  import Staleness

  const Port := 9999
  /** The ttl `_forward_message` assumes when a message carries none. */
  const DefaultTtl := 10
  /** The ttl of messages this node originates. */
  const MessageTtl := 10
  const Everyone := "ALL"

  datatype Packet = Packet(
    kind: Option<string>,
    nodeId: Option<string>,
    username: Option<string>,
    msgId: Option<string>,
    from: Option<string>,
    fromUsername: Option<string>,
    to: Option<string>,
    payload: Option<string>,
    ttl: Option<int>)

  datatype Peer = Peer(username: string, ip: string, lastSeen: int)

  datatype Node = Node(id: string, username: string, peers: OrdMap<string, Peer>, seen: set<string>)

  /** A unicast datagram to `ip`, port 9999. */
  datatype Send = Send(packet: Packet, ip: string)

  datatype Step = Step(node: Node, sends: seq<Send>, shown: seq<(string, string)>)

  /** One copy of `p` to each peer, in the table's order. */
  function ToAllPeers(peers: OrdMap<string, Peer>, p: Packet): (r: seq<Send>)
    ensures |r| == |peers.keys|
    ensures forall i :: 0 <= i < |r| ==> r[i] == Send(p, peers.entries[peers.keys[i]].ip)
  {
    var vs := Values(peers);
    seq(|vs|, i requires 0 <= i < |vs| => Send(p, vs[i].ip))
  }

  /** HELLO: the node's own HELLO, or one missing `node_id` or `username`, changes nothing; any other (re)sets the peer's record. */
  function HandleHello(n: Node, p: Packet, senderIp: string, now: int): (r: Step)
    ensures r.sends == [] && r.shown == []
    ensures p.nodeId.None? || p.nodeId == Some(n.id) || p.username.None? ==> r.node == n
    ensures p.nodeId.Some? && p.nodeId != Some(n.id) && p.username.Some? ==>
      && r.node.peers.entries == n.peers.entries[p.nodeId.value := Peer(p.username.value, senderIp, now)]
      && r.node.seen == n.seen && r.node.id == n.id && r.node.username == n.username
      && (p.nodeId.value in n.peers.entries ==> r.node.peers.keys == n.peers.keys)
      && (p.nodeId.value !in n.peers.entries ==> r.node.peers.keys == n.peers.keys + [p.nodeId.value])
  {
    if p.nodeId.None? || p.nodeId == Some(n.id) || p.username.None? then Step(n, [], [])
    else
      var peer := Peer(p.username.value, senderIp, now);
      Step(n.(peers := Put(n.peers, p.nodeId.value, peer)), [], [])
  }

  /**
   * `_forward_message`: the ttl (10 when absent) is decreased first and the
   * message dropped when the result is not positive, so a message that
   * arrives with ttl 1 goes no further.  Otherwise one copy with the new ttl
   * goes to every known peer.
   */
  function Forward(n: Node, p: Packet): (r: seq<Send>)
    ensures p.ttl.GetOr(DefaultTtl) <= 1 ==> r == []
    ensures p.ttl.GetOr(DefaultTtl) > 1 ==> r == ToAllPeers(n.peers, p.(ttl := Some(p.ttl.GetOr(DefaultTtl) - 1)))
  {
    var ttl := p.ttl.GetOr(DefaultTtl) - 1;
    if ttl <= 0 then [] else ToAllPeers(n.peers, p.(ttl := Some(ttl)))
  }

  /**
   * MESSAGE: a duplicate id changes nothing; a new id is recorded (the set is
   * never capped).  A message to neither this node nor "ALL" is forwarded;
   * otherwise it is shown and never forwarded.
   */
  function HandleMessage(n: Node, p: Packet): (r: Step)
    ensures p.msgId.None? || p.msgId.value in n.seen ==> r == Step(n, [], [])
    ensures p.msgId.Some? && p.msgId.value !in n.seen ==>
      && r.node == n.(seen := n.seen + {p.msgId.value})
      && (p.to.Some? && p.to.value != n.id && p.to.value != Everyone ==> r.sends == Forward(n, p) && r.shown == [])
      && ((p.to == Some(n.id) || p.to == Some(Everyone)) ==>
            (&& r.sends == []
             && (p.fromUsername.Some? && p.payload.Some? ==> r.shown == [(p.fromUsername.value, p.payload.value)])
             && (p.fromUsername.None? || p.payload.None? ==> r.shown == [])))
      && (p.to.None? ==> r.sends == [] && r.shown == [])
  {
    if p.msgId.None? || p.msgId.value in n.seen then Step(n, [], [])
    else
      var n' := n.(seen := n.seen + {p.msgId.value});
      if p.to.None? then Step(n', [], [])
      else if p.to.value != n.id && p.to.value != Everyone then Step(n', Forward(n', p), [])
      else if p.fromUsername.None? || p.payload.None? then Step(n', [], [])
      else Step(n', [], [(p.fromUsername.value, p.payload.value)])
  }

  /** The receive loop's dispatch on `message['type']`. */
  function Receive(n: Node, p: Packet, senderIp: string, now: int): (r: Step)
    ensures p.kind != Some("HELLO") && p.kind != Some("MESSAGE") ==> r == Step(n, [], [])
    ensures p.kind == Some("HELLO") ==> r == HandleHello(n, p, senderIp, now)
    ensures p.kind == Some("MESSAGE") ==> r == HandleMessage(n, p)
  {
    if p.kind == Some("HELLO") then HandleHello(n, p, senderIp, now)
    else if p.kind == Some("MESSAGE") then HandleMessage(n, p)
    else Step(n, [], [])
  }

  predicate Fresh(now: int, id: string, peer: Peer)
  {
    !Staleness.IsStale(peer.lastSeen, now)
  }

  /** One cleanup pass: exactly the peers last seen more than 15 seconds ago go; the rest keep their records and order. */
  function Sweep(n: Node, now: int): (r: Node)
    ensures forall k :: k in r.peers.entries <==> k in n.peers.entries && !Staleness.IsStale(n.peers.entries[k].lastSeen, now)
    ensures forall k :: k in r.peers.entries ==> r.peers.entries[k] == n.peers.entries[k]
    ensures r.peers.keys == KeepKeys(n.peers.keys, n.peers.entries, (k, v) => Fresh(now, k, v))
    ensures r.seen == n.seen && r.id == n.id && r.username == n.username
  {
    n.(peers := Filter(n.peers, (k, v) => Fresh(now, k, v)))
  }

  // ------------------------------------------------------------ sending

  predicate NameMatches(peer: Peer, name: string)
  {
    EqualsIgnoreCase(peer.username, name)
  }

  /** The first key, in table order, whose peer's username equals `name` ignoring case. */
  function FirstNamed(keys: seq<string>, peers: map<string, Peer>, name: string): (r: Option<string>)
    requires forall k :: k in keys ==> k in peers
    ensures r.Some? ==> exists i :: 0 <= i < |keys| && keys[i] == r.value && NameMatches(peers[keys[i]], name)
                                    && forall j :: 0 <= j < i ==> !NameMatches(peers[keys[j]], name)
    ensures r.None? ==> forall i :: 0 <= i < |keys| ==> !NameMatches(peers[keys[i]], name)
  {
    if |keys| == 0 then None
    else if NameMatches(peers[keys[0]], name) then Some(keys[0])
    else
      var rest := FirstNamed(keys[1..], peers, name);
      assert forall i :: 1 <= i < |keys| ==> keys[i] == keys[1..][i - 1];
      rest
  }

  /**
   * Recipient resolution in `send_message`: any spelling of "all" means
   * everyone; otherwise the first peer whose username matches ignoring case.
   * An empty node id counts as not found, as Python's `if not to_node_id`.
   */
  function Resolve(n: Node, toUsername: string): (r: Option<string>)
    ensures Upper(toUsername) == Everyone ==> r == Some(Everyone)
    ensures Upper(toUsername) != Everyone && r.Some? ==>
      && r.value in n.peers.entries && |r.value| > 0 && NameMatches(n.peers.entries[r.value], toUsername)
      && exists i :: 0 <= i < |n.peers.keys| && n.peers.keys[i] == r.value
           && forall j :: 0 <= j < i ==> !NameMatches(n.peers.entries[n.peers.keys[j]], toUsername)
    ensures Upper(toUsername) != Everyone && r.None? ==>
      forall i :: 0 <= i < |n.peers.keys| && NameMatches(n.peers.entries[n.peers.keys[i]], toUsername)
                  && (forall j :: 0 <= j < i ==> !NameMatches(n.peers.entries[n.peers.keys[j]], toUsername)) ==>
        |n.peers.keys[i]| == 0
  {
    if Upper(toUsername) == Everyone then Some(Everyone)
    else
      var found := FirstNamed(n.peers.keys, n.peers.entries, toUsername);
      if found.Some? && |found.value| > 0 then found else None
  }

  datatype SendResult = UnknownUser | NoPeers | Sent(message: Packet, sends: seq<Send>)

  /**
   * `send_message`: nothing is sent to an unknown user or when there is no
   * recipient; otherwise one MESSAGE with ttl 10 goes to every peer (for
   * "ALL") or to the addressed peer alone.
   */
  function SendMessage(n: Node, toUsername: string, payload: string, msgId: string): (r: SendResult)
    ensures Resolve(n, toUsername).None? <==> r.UnknownUser?
    ensures r.Sent? ==> |r.sends| > 0 && r.message.ttl == Some(MessageTtl) && r.message.kind == Some("MESSAGE")
    ensures r.Sent? ==> r.message.from == Some(n.id) && r.message.fromUsername == Some(n.username)
                        && r.message.to == Resolve(n, toUsername) && r.message.payload == Some(payload)
    ensures r.Sent? && r.message.to == Some(Everyone) ==> r.sends == ToAllPeers(n.peers, r.message)
    ensures r.Sent? && r.message.to != Some(Everyone) ==>
      r.sends == [Send(r.message, n.peers.entries[r.message.to.value].ip)]
    ensures r.NoPeers? ==> Resolve(n, toUsername) == Some(Everyone) && |n.peers.keys| == 0
  {
    var to := Resolve(n, toUsername);
    if to.None? then UnknownUser
    else
      var message := Packet(Some("MESSAGE"), None, None, Some(msgId), Some(n.id), Some(n.username),
                            to, Some(payload), Some(MessageTtl));
      var sends :=
        if to.value == Everyone then ToAllPeers(n.peers, message)
        else if to.value in n.peers.entries then [Send(message, n.peers.entries[to.value].ip)]
        else [];
      if |sends| == 0 then NoPeers else Sent(message, sends)
  }

  /**
   * Discovery feeds addressing: after a HELLO from node `id` with a username
   * no known peer answers to, `send_message` to that username resolves to
   * `id` and sends exactly one datagram, to the address the HELLO came from.
   */
  lemma HelloThenResolve(n: Node, id: string, name: string, ip: string, now: int, payload: string, msgId: string)
    requires id != "" && id != n.id && id != Everyone
    requires Upper(name) != Everyone
    requires forall i :: 0 <= i < |n.peers.keys| ==> !NameMatches(n.peers.entries[n.peers.keys[i]], name)
    ensures var hello := Packet(Some("HELLO"), Some(id), Some(name), None, None, None, None, None, None);
      var n' := Receive(n, hello, ip, now).node;
      && Resolve(n', name) == Some(id)
      && SendMessage(n', name, payload, msgId).Sent?
      && SendMessage(n', name, payload, msgId).sends == [Send(SendMessage(n', name, payload, msgId).message, ip)]
  {
    var hello := Packet(Some("HELLO"), Some(id), Some(name), None, None, None, None, None, None);
    var n' := Receive(n, hello, ip, now).node;
    assert n'.peers.entries == n.peers.entries[id := Peer(name, ip, now)];
    assert NameMatches(n'.peers.entries[id], name);
    assert id in n'.peers.keys;
    var found := FirstNamed(n'.peers.keys, n'.peers.entries, name);
    assert found == Some(id) by {
      if id in n.peers.entries {
        assert n'.peers.keys == n.peers.keys;
      } else {
        assert n'.peers.keys == n.peers.keys + [id];
        assert forall i :: 0 <= i < |n.peers.keys| ==> n'.peers.keys[i] == n.peers.keys[i];
      }
      assert forall i :: 0 <= i < |n'.peers.keys| && n'.peers.keys[i] != id ==>
        !NameMatches(n'.peers.entries[n'.peers.keys[i]], name);
    }
  }

  /** A message that reaches a relay with ttl 1 is not forwarded; with ttl 2 it is forwarded to every peer with ttl 1. */
  lemma ForwardStopsAtOne(n: Node, p: Packet)
    ensures p.ttl == Some(1) ==> Forward(n, p) == []
    ensures p.ttl == Some(2) ==> Forward(n, p) == ToAllPeers(n.peers, p.(ttl := Some(1)))
  {
  }

  /** Seen ids are never dropped: once a message is handled, every later copy of it is ignored, however many ids arrive in between. */
  lemma SeenNeverForgets(n: Node, ps: seq<Packet>, p: Packet)
    requires p.msgId.Some? && p.msgId.value in n.seen
    ensures HandleMessages(n, ps).seen >= n.seen
    ensures HandleMessage(HandleMessages(n, ps), p) == Step(HandleMessages(n, ps), [], [])
  {
    HandleMessagesGrowsSeen(n, ps);
  }

  /** The node after handling a run of MESSAGE packets in order. */
  function HandleMessages(n: Node, ps: seq<Packet>): Node
    decreases |ps|
  {
    if |ps| == 0 then n else HandleMessages(HandleMessage(n, ps[0]).node, ps[1..])
  }

  lemma {:induction false} HandleMessagesGrowsSeen(n: Node, ps: seq<Packet>)
    ensures HandleMessages(n, ps).seen >= n.seen
    decreases |ps|
  {
    if |ps| > 0 {
      HandleMessagesGrowsSeen(HandleMessage(n, ps[0]).node, ps[1..]);
    }
  }

  // ------------------------------------------------------------ interface detection

  datatype Detection = Interface(name: string) | NoInterface | ParseError

  predicate MentionsP2p(line: string)
  {
    Contains(line, "p2p-wlan") || Contains(line, "p2p0")
  }

  /**
   * The interface name on a line: field 1 of the `:`-split (the text between
   * the first and the second `:`), stripped, cut at the first `@`; a line
   * without `:` has no field 1 and raises.
   */
  function InterfaceOnLine(line: string): (r: Detection)
    ensures r.ParseError? <==> ':' !in line
    ensures !r.NoInterface?
    ensures ':' in line ==>
      r == Interface(UpTo(Strip(UpTo(line[IndexOf(line, ':') + 1..], ':')), '@'))
    ensures r.Interface? ==> ':' !in r.name && '@' !in r.name
  {
    var fields := Split(line, ':');
    if |fields| < 2 then ParseError
    else
      FieldOne(line);
      var name := Split(Strip(fields[1]), '@')[0];
      SplitHead(Strip(fields[1]), '@');
      NameHasNoColon(fields[1], name);
      Interface(name)
  }

  /** Field 1 of the `:`-split exists exactly when the line holds a `:`, and is the text up to the next `:`. */
  lemma FieldOne(line: string)
    ensures |Split(line, ':')| >= 2 <==> ':' in line
    ensures ':' in line ==> Split(line, ':')[1] == UpTo(line[IndexOf(line, ':') + 1..], ':')
  {
    if ':' in line {
      SplitStep(line, ':');
      SplitHead(line[IndexOf(line, ':') + 1..], ':');
    }
  }

  lemma NameHasNoColon(field: string, name: string)
    requires ':' !in field
    requires name == Split(Strip(field), '@')[0]
    ensures ':' !in name
  {
    var t := Strip(field);
    var parts := Split(t, '@');
    if |parts| > 1 {
      assert Join(parts, '@') == parts[0] + ['@'] + Join(parts[1..], '@');
    }
    assert t[..|parts[0]|] == parts[0];
  }

  /**
   * An `ip addr` header line `N: NAME@LINK: ...` or `N: NAME: ...` yields
   * `NAME`, whatever follows it.
   */
  lemma {:induction false} InterfaceLineRoundTrip(index: string, name: string, sep: char, rest: string)
    requires ':' !in index
    requires IsWord(name) && ':' !in name && '@' !in name
    requires sep == '@' || sep == ':'
    ensures InterfaceOnLine(index + ": " + name + [sep] + rest) == Interface(name)
  {
    var body := name + [sep] + rest;
    var line := index + ": " + name + [sep] + rest;
    HeaderField(index, body, line);
    var more := if sep == ':' then "" else "@" + UpTo(rest, ':');
    BodyField(name, sep, rest, more);
    var field := UpTo(line[IndexOf(line, ':') + 1..], ':');
    assert field == " " + name + more;
    StripBlankWord(name, more);
    var t := Strip(field);
    if sep == ':' {
      assert t == name;
    } else {
      assert more[0] == '@';
      assert t[|name|] == '@';
    }
    UpToIs(t, '@', name);
    assert InterfaceOnLine(line) == Interface(UpTo(t, '@'));
  }

  /** Field 1 of `INDEX: BODY` is a blank and then `BODY` up to its first `:`. */
  lemma HeaderField(index: string, body: string, line: string)
    requires ':' !in index
    requires line == index + ": " + body
    ensures ':' in line && UpTo(line[IndexOf(line, ':') + 1..], ':') == " " + UpTo(body, ':')
  {
    assert line == index + [':'] + (" " + body);
    IndexOfJoined(index, ':', " " + body);
    UpToAppend(" ", body, ':');
  }

  /** `NAME:REST` cut at `:` is `NAME`; `NAME@REST` cut at `:` is `NAME@` and the head of `REST`. */
  lemma BodyField(name: string, sep: char, rest: string, more: string)
    requires ':' !in name
    requires sep == '@' || sep == ':'
    requires more == if sep == ':' then "" else "@" + UpTo(rest, ':')
    ensures " " + UpTo(name + [sep] + rest, ':') == " " + name + more
  {
    if sep == ':' {
      UpToIs(name + [sep] + rest, ':', name);
      assert " " + name + more == " " + name;
    } else {
      assert name + [sep] + rest == (name + "@") + rest;
      UpToAppend(name + "@", rest, ':');
      assert " " + (name + "@" + UpTo(rest, ':')) == " " + name + more;
    }
  }

  /** Stripping ` NAME...` keeps NAME and the character after it, when that is not blank. */
  lemma StripBlankWord(name: string, more: string)
    requires |name| > 0 && !IsSpace(name[0]) && !IsSpace(name[|name| - 1])
    requires |more| > 0 ==> !IsSpace(more[0])
    ensures var t := Strip(" " + name + more);
      |name| <= |t| && t[..|name|] == name && (|name| < |t| ==> t[|name|] == more[0])
      && (|more| == 0 ==> t == name) && (|more| > 0 ==> |name| < |t|)
  {
    var u := name + more;
    assert " " + name + more == " " + u;
    StripAfterBlank(u);
    var t := TrimEnd(u);
    if |more| > 0 {
      TrimEndKeeps(u, |name|);
      PrefixOfPrefix(u, t, |name|);
      assert u[..|name|] == name;
    } else {
      TrimEndKeeps(u, |u| - 1);
      assert t == u;
    }
  }

  /**
   * `detect_p2p_interface` over the lines of `ip addr` output: the first line
   * mentioning `p2p-wlan` or `p2p0` decides; later lines are never looked at.
   */
  function DetectInterfaceIn(lines: seq<string>): (r: Detection)
    ensures r.NoInterface? <==> forall k :: 0 <= k < |lines| ==> !MentionsP2p(lines[k])
    ensures !r.NoInterface? ==> exists k :: 0 <= k < |lines| && MentionsP2p(lines[k]) && r == InterfaceOnLine(lines[k])
                                            && forall j :: 0 <= j < k ==> !MentionsP2p(lines[j])
  {
    match FirstP2pLine(lines, 0)
    case None => NoInterface
    case Some(k) => InterfaceOnLine(lines[k])
  }

  /** The index of the first line, from `i` on, that mentions a P2P interface. */
  function FirstP2pLine(lines: seq<string>, i: nat): (r: Option<nat>)
    ensures r.None? ==> forall k :: i <= k < |lines| ==> !MentionsP2p(lines[k])
    ensures r.Some? ==> i <= r.value < |lines| && MentionsP2p(lines[r.value])
                        && forall j :: i <= j < r.value ==> !MentionsP2p(lines[j])
    decreases |lines| - i
  {
    if i >= |lines| then None
    else if MentionsP2p(lines[i]) then Some(i)
    else FirstP2pLine(lines, i + 1)
  }

  function DetectInterface(ipAddrOutput: string): Detection
  {
    DetectInterfaceIn(Split(ipAddrOutput, '\n'))
  }
}

=== FILE: wrappers.dfy ===
/** Optional values: a JSON key that may be absent from a packet, a lookup that may miss. */
module Wrappers {

  datatype Option<+T> = None | Some(value: T) {

    /** The wrapped value, or `default` when absent (Python's `dict.get(key, default)`). */
    function GetOr(default: T): T
    {
      match this
      case Some(v) => v
      case None => default
    }
  }
}
